=== FILE: README.md ===
# cellsolver, modelled in Dafny

cellsolver solves the ordinary differential equations of cell models that
libCellML generates as Python modules. A generated module exposes array
constructors and callbacks: initialise the states and constants, compute the
computed constants, compute the rates and, for models with resets, compute
reset test values and apply resets. This project models the following:

- the three fixed-step explicit Euler drivers, which are plain (version
  0.1.0), reset-capable (version 0.1.0, and its copy `solve_using_euler` in
  `main.py`) and driven by external variables (version 0.3.0);
- the solver dispatch of the command-line entry point;
- the configuration filter that chooses which variables to report;
- the generated one-state sample `simple_ode.py`, run through the
  reset-capable driver.

Modules:

- `Vectors`: model arrays as `seq<real>`. Holds the `zip`/`map` arithmetic of
  the Euler update and the placeholder for unwritten entries.
- `Schedule`: the step-size argument, the interval, the loop count of
  `while t + h <= end` and the time grid `t0 + k·h`.
- `ModelContract`: what a generated module hands a driver, as datatypes of
  callbacks. Also the shared "samples record the loop states" predicate
  `Records`.
- `EulerPlain`, `EulerResetCapable`, `EulerExternal`: each driver is a
  `method` with its loop. `EulerPlain` and `EulerResetCapable` each have a
  functional reference: a `Step`, the `Iterate`d state after `k` steps, and
  its `Trace`. `EulerExternal` reuses `EulerPlain`'s reference on the model
  with the external module bound in (`Bound`). Each method's contract ties
  every sample to its reference.
- `ResetRule`: the activation mask `test[i]·reference[i] <= 0`.
- `SimpleOde`: the sample model and its sawtooth.
- `Utilities`: `str.split`, parsing dotted `component.name` strings, matching,
  and `apply_config`.
- `CellSolverMain`: `KNOWN_SOLVERS`, `solve_using_euler` and the dispatch in
  `main`.

A generated callback mutates the lists it is given. Here it is a total
function that returns the new contents of the arrays it may write.
`compute_rates` returns rates and variables, because generated rate code also
stores algebraic variables. A well-formed model keeps every array at its
declared size. The drivers require this through `WellFormed`,
`ResetWellFormed` or `ExternalWellFormed`.

The drivers record the state at every integration step: there is no
separate reporting step, and no sample is forced onto the end of the
interval. The last sample is at the last `t` with `t + h <= end`.

An unknown solver name does not raise: `main` prints a message and leaves
`x` and `y_n` empty with `valid_solution` false (`src/cellsolver/main.py`, lines 193-198).

## Model

| member | source | states |
|---|---|---|
| `Vectors.Unset` | src/cellsolver/codesamples/simple_ode.py:35-44 | a freshly created array has the requested length and every entry unwritten |
| `Vectors.Add` | src/cellsolver/solvers/version_0_1_0.py:41 | `[sum(x) for x in zip(a, b)]` is as long as the shorter list, and entry `i` is `a[i] + b[i]` |
| `Vectors.Scale` | src/cellsolver/solvers/version_0_1_0.py:40 | `map(lambda var: var * step_size, v)` keeps the length and multiplies every entry by the step |
| `Vectors.EulerStep` | src/cellsolver/solvers/version_0_1_0.py:40-41 | the update `[sum(x) for x in zip(states, delta)]` with `delta = rates·h` is `s[i] + h·r[i]` entrywise, truncated to the shorter list |
| `Vectors.EulerStepsCompose` | src/cellsolver/solvers/version_0_1_0.py:40-41 | two Euler steps along one rate vector are a single step of the summed size |
| `Schedule.StepCount` | src/cellsolver/solvers/version_0_1_0.py:30-43 | the number of iterations of `while t + h <= end` with `t += h`: every grid time before it passes the guard, the one at it fails, and it is zero exactly when `t0 + h > end` |
| `Schedule.Unwrap` | src/cellsolver/solvers/version_0_1_0.py:24-25 | a step given as a number is used as it is; a step given as a list is its first element |
| `Schedule.Start` | src/cellsolver/solvers/version_0_1_0.py:30 | the loop starts at the interval's first element |
| `Schedule.End` | src/cellsolver/solvers/version_0_1_0.py:31 | the loop ends at the interval's last element, `interval[-1]`, which for a one-element interval is also its start |
| `Schedule.CommandLineArguments` | src/cellsolver/main.py:167-170 | the one-element step list and the two-element interval the command line produces give the step, the start and the end that were typed in, and the step list means the same as the plain number; a definitional unfolding kept as documentation of the argument shapes |
| `ModelContract.AppendSample` | src/cellsolver/solvers/version_0_1_0.py:34-36 | appending a sample adds entry `i` of the state to the end of series `i` and leaves every other series alone |
| `ModelContract.EmptySeries` | src/cellsolver/solvers/version_0_1_0.py:27 | the result starts as one empty series per state |
| `ModelContract.CloseRecord` | src/cellsolver/solvers/version_0_1_0.py:33 | when the loop exits, the recorded times are the grid times that passed the guard, the next grid time fails it, the output is empty iff `t0 + h > end`, and the record covers exactly the sampled loop states |
| `ModelContract.RecordNext` | src/cellsolver/solvers/version_0_1_0.py:33-36 | recording the next loop state at the top of an iteration keeps `x` and the series a faithful record of the loop states so far |
| `EulerPlain.InitializeSystem` | src/cellsolver/solvers/version_0_1_0.py:5-13 | the states come from initialisation on fresh arrays; the variables are the computed constants derived from initialisation's variables; the rates stay unwritten |
| `EulerPlain.Initial` | src/cellsolver/solvers/version_0_1_0.py:22-31 | the loop starts at `interval[0]` with arrays of the declared sizes |
| `EulerPlain.Update` | src/cellsolver/solvers/version_0_1_0.py:16-19 | `update` returns the rate vector `compute_rates` writes, one entry per state |
| `EulerPlain.Step` | src/cellsolver/solvers/version_0_1_0.py:38-43 | one iteration keeps the array sizes and advances the time by `h` |
| `EulerPlain.StepIsEuler` | src/cellsolver/solvers/version_0_1_0.py:38-41 | one iteration keeps the rates `update` returns for the current time and state, and moves every state by `h` times its rate |
| `EulerPlain.IterateNext` | src/cellsolver/solvers/version_0_1_0.py:33-43 | the loop state after `k + 1` iterations is one step from the state after `k` |
| `EulerPlain.TracePrefix` | src/cellsolver/solvers/version_0_1_0.py:33-43 | the first `m` loop states begin every longer trace, and loop state `k` is at time `t0 + k·h` |
| `EulerPlain.Iteration` | src/cellsolver/solvers/version_0_1_0.py:34-43 | one pass of the loop appends the current loop state to the record and moves to the next loop state, one step later in time |
| `EulerPlain.Iterate` | src/cellsolver/solvers/version_0_1_0.py:30-43 | after `k` iterations the time is `t0 + k·h` and the arrays keep their sizes |
| `EulerPlain.Trace` | src/cellsolver/solvers/version_0_1_0.py:30-43 | entry `k` of the first `n` loop states is the state after `k` iterations |
| `EulerPlain.EulerBasedSolver` | src/cellsolver/solvers/version_0_1_0.py:21-45 | one series per state, each as long as `x`; `x[k] = t0 + k·h` with `x[k] + h <= end`, and the next grid time fails the guard; empty output iff `t0 + h > end`; sample `k` is the state before step `k` |
| `EulerPlain.Advance` | src/cellsolver/solvers/version_0_1_0.py:38-41 | the loop body computes one `Step` of the reference: the kept rates are those `update` returns for the current time and state, and every state moves by `h` times its rate |
| `EulerPlain.SampledStep` | src/cellsolver/solvers/version_0_1_0.py:38-41 | two consecutive recorded loop states differ by `h` times the rates at the earlier one |
| `EulerPlain.SampledSteps` | src/cellsolver/solvers/version_0_1_0.py:38-41 | in any recorded run, `s[k+1] = s[k] + h·rate(t_k, s_k)` for every state and consecutive sample pair |
| `EulerPlain.ConstantRateLaw` | src/cellsolver/solvers/version_0_1_0.py:38-43 | with a rate law that returns `c` on every input of the declared sizes, the state after `k` iterations is `s0 + k·h·c` |
| `EulerPlain.ConstantRateStep` | src/cellsolver/solvers/version_0_1_0.py:38-41 | one iteration of a rate law that returns `c` on inputs of the declared sizes is one Euler step along `c` |
| `ResetRule.Activated` | src/cellsolver/solvers/version_0_1_0_reset_capable.py:48 | the mask has one entry per reference entry |
| `ResetRule.ActivationIsSignChange` | src/cellsolver/solvers/version_0_1_0_reset_capable.py:48 | reset `i` is active iff its test value or its reference is zero, or the two lie strictly on opposite sides of zero |
| `ResetRule.SameSideNeverFires` | src/cellsolver/solvers/version_0_1_0_reset_capable.py:48 | no reset fires while every test value stays strictly on its reference's side of zero |
| `EulerResetCapable.InitializeSystem` | src/cellsolver/solvers/version_0_1_0_reset_capable.py:5-14 | as the plain driver's initialisation, plus an unwritten test-value array with one entry per reset |
| `EulerResetCapable.Initial` | src/cellsolver/solvers/version_0_1_0_reset_capable.py:23-31 | the loop starts at `interval[0]` with arrays of the declared sizes |
| `EulerResetCapable.Reference` | src/cellsolver/solvers/version_0_1_0_reset_capable.py:34-35 | the reference holds one test value per reset, computed once from the initial state at `interval[0]` |
| `EulerResetCapable.RatesAt` | src/cellsolver/solvers/version_0_1_0_reset_capable.py:42 | `compute_rates` gives rates and variables of the declared sizes |
| `EulerResetCapable.Stepped` | src/cellsolver/solvers/version_0_1_0_reset_capable.py:44-45 | the state after the Euler step and before any reset is `s[i] + h·r[i]` |
| `EulerResetCapable.StepActivation` | src/cellsolver/solvers/version_0_1_0_reset_capable.py:47-48 | the mask of a step has one entry per reset; it is taken from the stepped state's test values at the pre-step time |
| `EulerResetCapable.Step` | src/cellsolver/solvers/version_0_1_0_reset_capable.py:42-53 | one iteration keeps the array sizes and advances the time by `h` |
| `EulerResetCapable.Iterate` | src/cellsolver/solvers/version_0_1_0_reset_capable.py:37-53 | after `k` iterations the time is `t0 + k·h` and the arrays keep their sizes |
| `EulerResetCapable.Trace` | src/cellsolver/solvers/version_0_1_0_reset_capable.py:37-53 | entry `k` of the first `n` loop states is the state after `k` iterations |
| `EulerResetCapable.Run` | src/cellsolver/solvers/version_0_1_0_reset_capable.py:22-55 | the trajectory from `interval[0]` has one loop state per iteration |
| `EulerResetCapable.EulerBasedSolver` | src/cellsolver/solvers/version_0_1_0_reset_capable.py:22-55 | one series per state, each as long as `x`; `x[k] = t0 + k·h` with the loop guard; empty output iff `t0 + h > end`; sample `k` is the post-reset state of step `k-1`; every step is compared against the reference from `interval[0]` |
| `EulerResetCapable.IterateNext` | src/cellsolver/solvers/version_0_1_0_reset_capable.py:37-53 | the loop state after `k + 1` iterations is one step from the state after `k`, against the same reference |
| `EulerResetCapable.Iteration` | src/cellsolver/solvers/version_0_1_0_reset_capable.py:38-53 | one pass of the loop appends the current loop state to the record, moves to the next loop state and leaves the scratch test array equal to the reference |
| `EulerResetCapable.Advance` | src/cellsolver/solvers/version_0_1_0_reset_capable.py:42-51 | the loop body computes one `Step` against the reference: before any reset every state moves by `h` times its rate; reset `i` is flagged iff `tests[i]·reference[i] <= 0` for the test values of the stepped state at the pre-step time; the model applies exactly the flagged resets; the scratch test array is left equal to the reference |
| `EulerResetCapable.NoResetIsEuler` | src/cellsolver/solvers/version_0_1_0_reset_capable.py:42-49 | on a step where no reset fires, and with a model whose `apply_resets` then leaves the state alone, the next state is the plain Euler step |
| `EulerResetCapable.SampledNoResetStep` | src/cellsolver/solvers/version_0_1_0_reset_capable.py:38-49 | in a recorded run, a sample after a step without resets is the previous sample plus `h·rate` in every series |
| `EulerResetCapable.ReferenceIsFixed` | src/cellsolver/solvers/version_0_1_0_reset_capable.py:35-51 | every step of a run compares against the same reference computed at `interval[0]`; an unfolding of `Run` kept as documentation, the promise itself being carried by `Run` and the driver's loop invariant |
| `EulerExternal.InitializeSystem` | src/cellsolver/solvers/version_0_3_0_external_variables.py:7-15 | initialisation is handed the external initialiser; the computed constants are derived from its variables; the rates stay unwritten |
| `EulerExternal.Bound` | src/cellsolver/solvers/version_0_3_0_external_variables.py:35-36 | binding the external module gives a well-formed plain model of the same sizes |
| `EulerExternal.InitialIsExternallyInitialised` | src/cellsolver/solvers/version_0_3_0_external_variables.py:19 | the first loop state is the externally initialised arrays at `interval[0]` |
| `EulerExternal.StepEvaluatesVariablesFirst` | src/cellsolver/solvers/version_0_3_0_external_variables.py:35-39 | per step, `compute_variables` runs first with the updater; `compute_rates` sees its variables and the updater; the state takes a pure Euler step along those rates |
| `EulerExternal.EulerBasedSolver` | src/cellsolver/solvers/version_0_3_0_external_variables.py:18-43 | one series per state, each as long as `x`; `x[k] = t0 + k·h` with the loop guard; empty output iff `t0 + h > end`; sample `k` is the state before step `k` of the bound model |
| `EulerExternal.Iteration` | src/cellsolver/solvers/version_0_3_0_external_variables.py:31-41 | one pass of the loop appends the current loop state to the record and moves to the next loop state of the bound model |
| `EulerExternal.Advance` | src/cellsolver/solvers/version_0_3_0_external_variables.py:35-39 | the loop body computes one step of the bound model, and every state moves by `h` times the rate computed from the freshly evaluated variables |
| `EulerExternal.InitialiserOnlyAtStart` | src/cellsolver/solvers/version_0_3_0_external_variables.py:12 | modules with the same updater whose initialisers give the same initial arrays drive identical runs: the initialiser is used at initialisation only |
| `SimpleOde.InitializeStatesAndConstants` | src/cellsolver/codesamples/simple_ode.py:47-48 | the state starts at 1; nothing else is written |
| `SimpleOde.ComputeRates` | src/cellsolver/codesamples/simple_ode.py:55-56 | the rate is 1 whatever the time and state; the variables are untouched |
| `SimpleOde.ComputeResetTestValueDifferences` | src/cellsolver/codesamples/simple_ode.py:63-64 | the test value is `A - 2`, negative exactly below 2 |
| `SimpleOde.ApplyResets` | src/cellsolver/codesamples/simple_ode.py:71-74 | an active reset sets `A` to 1; an inactive one leaves the state unchanged |
| `SimpleOde.Model` | src/cellsolver/codesamples/simple_ode.py:10-12 | the sample has 1 state, 0 variables and 1 reset, and is a well-formed reset-capable model |
| `SimpleOde.InitialState` | src/cellsolver/codesamples/simple_ode.py:47-52 | the first loop state is `A = 1` with no variables |
| `SimpleOde.ReferenceIsMinusOne` | src/cellsolver/codesamples/simple_ode.py:63-64 | the reference test vector is `[-1]` |
| `SimpleOde.FiresIffReachesTwo` | src/cellsolver/solvers/version_0_1_0_reset_capable.py:47-48 | the reset fires on a step exactly when the stepped state `A + h` is at least 2 |
| `SimpleOde.PlainRunIsLinear` | src/cellsolver/codesamples/simple_ode.py:55-56 | run through the plain driver, which ignores resets, the sample's unit rate gives `A = 1 + k·h` after `k` iterations |
| `SimpleOde.StepRule` | src/cellsolver/codesamples/simple_ode.py:71-74 | one step maps `A` to `A + h`, or to 1 once `A + h` reaches 2 |
| `SimpleOde.Sawtooth` | src/cellsolver/codesamples/simple_ode.py:47-74 | with `h >= 0`, `A` stays in `[1, 2)` after any number of steps from a start in `[1, 2)` |
| `SimpleOde.RecordedSawtooth` | src/cellsolver/solvers/version_0_1_0_reset_capable.py:37-53 | the samples of a recorded run start at 1, all lie in `[1, 2)`, and each is the previous plus `h`, or 1 when that reaches 2 |
| `SimpleOde.RunSimpleOde` | src/cellsolver/solvers/version_0_1_0_reset_capable.py:22-55 | the reset-capable driver on the sample returns one series on the time grid whose samples start at 1, stay in [1, 2) and follow the sawtooth, for every step the driver returns on; a negative step returns only when it yields no samples |
| `Utilities.Split` | src/cellsolver/utilities.py:33 | `str.split` gives at least one piece, no piece holds the separator, and joining the pieces gives back the string |
| `Utilities.Join` | src/cellsolver/utilities.py:33 | joining `n` pieces gives a string of at least `n - 1` characters, room for the separator between each pair; that it inverts `Split` is stated by `Split`'s contract and by `SplitJoin` |
| `Utilities.SplitJoin` | src/cellsolver/utilities.py:33 | splitting joined separator-free pieces gives back the pieces |
| `Utilities.SplitPiece` | src/cellsolver/utilities.py:33 | a separator-free prefix becomes the first piece |
| `Utilities.SplitDenotes` | src/cellsolver/utilities.py:33-34 | a string with a dot has a first and a second piece: the text before the first dot and the text between the first two |
| `Utilities.DenotesUnique` | src/cellsolver/utilities.py:33-34 | the component and name a dotted string reads as are unique |
| `Utilities.InfoItemsList` | src/cellsolver/utilities.py:30-36 | one item per string, in order, with `component` the text before the first dot and `name` the text between the first and second; every string must contain a dot |
| `Utilities.MatchingInfoItems` | src/cellsolver/utilities.py:39-44 | true iff some match item has both the same name and the same component; units are ignored |
| `Utilities.NotMatchingInfoItems` | src/cellsolver/utilities.py:47-48 | true iff every match item differs in name or component |
| `Utilities.MatchingIsNamed` | src/cellsolver/utilities.py:61-63 | matching against the parsed list is the same as being named by one of the dotted strings |
| `Utilities.Range` | src/cellsolver/utilities.py:59 | `range(n)` lists `0 .. n-1` in order |
| `Utilities.Select` | src/cellsolver/utilities.py:63 | the comprehension over `enumerate(y_info)` yields strictly increasing indices in range, and an index iff its entry's match result is the wanted one |
| `Utilities.ApplyConfig` | src/cellsolver/utilities.py:58-68 | strictly increasing indices within `y_info`; a non-empty include list selects exactly the entries it names; otherwise a non-empty exclude list selects exactly those it does not name; otherwise every index |
| `Utilities.IncludesTakePrecedence` | src/cellsolver/utilities.py:61-66 | with a non-empty include list the exclude list never changes the result |
| `CellSolverMain.SolveUsingEuler` | src/cellsolver/main.py:49-83 | the copy in `main.py` keeps every promise of the reset-capable driver, a list step size using its first element |
| `CellSolverMain.Dispatch` | src/cellsolver/main.py:186-198 | a solution is valid iff the name is in `KNOWN_SOLVERS`; any other name gives empty `x` and `y_n`; `euler` gives the reset-capable Euler solve; `dop853` and `vode` give the adaptive solve of that name |
| `CellSolverMain.DefaultRunLength` | src/cellsolver/main.py:163-170 | the default solver is `euler`; the default step and interval make the Euler loop stop after 100000 iterations in exact arithmetic |

## Left out

- The scipy-based solvers are left out: `solve_using_scipy`, `solve_using_dop853` and `solve_using_vode` in `main.py`, and `scipy_based_solver` in every driver file. Their stepping and `successful()` belong to `scipy.integrate.ode`, whose code is not part of this model. `CellSolverMain.Dispatch` takes the adaptive solve as a parameter.
- `TimeExecution` is left out: wall-clock timing and global flags, which do not change any result.
- Argument parsing, module loading from a file path, `load_config`, `config_maker` and `plot_solution` are left out. This is I/O, covered only as far as the defaults in `CellSolverMain.DefaultRunLength`.
- The Hodgkin–Huxley sample is left out (floating-point `exp`/`pow` rate laws), and so are `src/main.py`, `version_0_2_0.py` (a renamed initialiser) and `setup.py`.
- Floating point is left out: all arithmetic is on `real`. The source's `t += step_size` accumulates rounding, so its sample times can drift from `t0 + k·h`, and its iteration count can differ from `Schedule.StepCount` by more than one. A step too small to change `t` in double precision (for example `h = 1.0` at `t = 1e16`) leaves `t` where it is, and the source loops forever although `h > 0`. NaN cannot be a `real`, so freshly created arrays hold the placeholder 0.0, and an unwritten entry reads 0.0 instead of NaN. An unwritten reference test value therefore makes `0 * x <= 0` fire on every step, where in the source a NaN comparison never fires. Likewise the first `compute_rates` and `compute_variables` calls see rates of 0.0, not NaN.
- An empty interval list, or an empty step-size list, makes `interval[0]` or `step_size[0]` raise `IndexError` in the source. Every driver and `CellSolverMain.SolveUsingEuler` require a non-empty interval and a non-empty step list (`Unwrappable`), so that error path is not modelled. The command line always passes two interval values and one step value.
- Drivers are modelled only for inputs where the loop terminates in exact arithmetic: a positive step, or a start that already fails the guard. With `h <= 0` and `t0 + h <= end` the source never returns. With `h > 0` the source can still fail to return, when the step is lost to rounding as described above; the model then still promises `Schedule.StepCount` iterations.
- The callbacks a generated module provides are parameters: any total functions of the model's sizes. That a callback writes only its own arrays, and the ascending order in which `apply_resets` applies several resets, are up to the generated code. `SimpleOde.ApplyResets` models the one reset of the sample; its `_apply_order_to_active_resets` does nothing. `compute_variables` of the sample does nothing; neither the plain nor the reset-capable driver, which the sample runs through, calls it.
- `EulerResetCapable.NoResetIsEuler`: holds only for models whose `apply_resets` leaves the state alone when no flag is set. That is how generated code behaves, but the driver cannot enforce it.
- `EulerPlain.Step`: its contract states sizes and time only. The Euler update it performs is stated by `EulerPlain.StepIsEuler`.
- `EulerResetCapable.Step`: its contract states sizes and time only. The step's content is stated through `NoResetIsEuler`, `StepActivation`, `ReferenceIsFixed` and, for the sample, `SimpleOde.StepRule`.
- `SimpleOde.Sawtooth`: stated for `h >= 0`. With a negative step the driver either does not run or does not terminate.
- `EulerPlain.Update`: its contract states the length of the rate vector only; which rates it returns is stated through `EulerPlain.StepIsEuler` and `EulerPlain.SampledSteps`.
- `CellSolverMain.Dispatch`: it takes a reset-capable `ResetSystem`. A module without `create_states_array` or `create_resets_array`, the default `hh` module among them (it defines `create_state_vector` instead), makes `initialize_system` raise `AttributeError` before any loop runs, for every solver name; this is not modelled. `CellSolverMain.DefaultRunLength` is therefore about the default step and interval, not about a run with every default.
- A string without a dot in a configuration list makes the source fail with an index error. `Utilities.InfoItemsList` and `Utilities.ApplyConfig` require every such string to contain a dot, for the list `apply_config` actually parses.

=== FILE: cellsolver_main.dfy ===
/**
 The command-line entry point's solving logic: the names of the known
 solvers, the reset-aware Euler solve, and the dispatch from a solver name
 to a solve. The adaptive solvers wrap a third-party integrator and enter the
 model as a parameter.
 */
module CellSolverMain {
  import opened Schedule
  import opened ModelContract
  import EulerResetCapable

  const KnownSolvers: seq<string> := ["euler", "dop853", "vode"]

  /** The command line's defaults: the first known solver, a scalar step of
      0.001 (a step given on the command line arrives as a one-element list)
      and the interval [0, 100]. */
  const DefaultSolver: string := KnownSolvers[0]
  const DefaultStepSize: StepSize := Scalar(0.001)
  const DefaultInterval: seq<real> := [0.0, 100.0]

  /** The outcome of a run: sampled times, one series per state, and whether
      a solve took place. */
  datatype Solution = Solution(x: seq<real>, yN: seq<seq<real>>, validSolution: bool)

  /** A scipy-based solve, `solve_using_scipy(system, method, step_size,
      interval)`, which this model does not look inside. */
  type AdaptiveSolver = (string, StepSize, seq<real>) -> (seq<real>, seq<seq<real>>)

  /** `solve_using_euler`: the same loop as the reset-capable driver, so the
      same promises hold of it. */
  method SolveUsingEuler(rs: ResetSystem, stepSize: StepSize, interval: seq<real>)
    returns (x: seq<real>, results: seq<seq<real>>)
    requires ResetWellFormed(rs)
    requires Unwrappable(stepSize) && |interval| > 0
    requires Terminates(Start(interval), Unwrap(stepSize), End(interval))
    ensures Aligned(x, results, rs.base.stateCount)
    ensures OnGrid(x, Start(interval), Unwrap(stepSize), End(interval))
    ensures |x| == 0 <==> Start(interval) + Unwrap(stepSize) > End(interval)
    ensures Records(x, results, EulerResetCapable.Run(rs, Unwrap(stepSize), Start(interval), |x|))
  {
    x, results := EulerResetCapable.EulerBasedSolver(rs, stepSize, interval);
  }

  /** What an Euler solve needs of its inputs. */
  ghost predicate EulerReady(rs: ResetSystem, stepSize: StepSize, interval: seq<real>) {
    && ResetWellFormed(rs)
    && Unwrappable(stepSize) && |interval| > 0
    && Terminates(Start(interval), Unwrap(stepSize), End(interval))
  }

  /** The dispatch in `main`: `euler` runs the Euler solve, `dop853` and
      `vode` the adaptive solve of that name, and any other name solves
      nothing. */
  method Dispatch(solver: string, rs: ResetSystem, stepSize: StepSize, interval: seq<real>,
                  adaptive: AdaptiveSolver)
    returns (s: Solution)
    requires solver == "euler" ==> EulerReady(rs, stepSize, interval)
    ensures s.validSolution <==> solver in KnownSolvers
    ensures !s.validSolution ==> s.x == [] && s.yN == []
    ensures solver == "euler" ==>
              && Aligned(s.x, s.yN, rs.base.stateCount)
              && OnGrid(s.x, Start(interval), Unwrap(stepSize), End(interval))
              && Records(s.x, s.yN, EulerResetCapable.Run(rs, Unwrap(stepSize), Start(interval), |s.x|))
    ensures solver == "dop853" || solver == "vode" ==> (s.x, s.yN) == adaptive(solver, stepSize, interval)
  {
    if solver == "euler" {
      var x, yN := SolveUsingEuler(rs, stepSize, interval);
      s := Solution(x, yN, true);
    } else if solver == "dop853" {
      var r := adaptive("dop853", stepSize, interval);
      s := Solution(r.0, r.1, true);
    } else if solver == "vode" {
      var r := adaptive("vode", stepSize, interval);
      s := Solution(r.0, r.1, true);
    } else {
      s := Solution([], [], false);
    }
  }

  /** With the default step and interval the Euler loop runs 100000 times, the
      last sample at t = 99.999 (in exact arithmetic). */
  lemma DefaultRunLength()
    ensures DefaultSolver == "euler"
    ensures Terminates(Start(DefaultInterval), Unwrap(DefaultStepSize), End(DefaultInterval))
    ensures StepCount(Start(DefaultInterval), Unwrap(DefaultStepSize), End(DefaultInterval)) == 100000
  {
    assert (100.0 / 0.001) == 100000.0;
  }
}

=== FILE: euler_external.dfy ===
/**
 The fixed-step Euler driver for models with external variables (solver
 version 0.3.0). Initialisation is handed the external module's initialiser;
 every iteration evaluates the algebraic variables and then the rates, both
 with the external module's updater, and takes the Euler step. With the
 module bound in, this is the plain driver run on a model whose rate code
 first evaluates the variables.
 */
module EulerExternal {
  import opened Vectors
  import opened Schedule
  import opened ModelContract
  import EulerPlain

  /** `initialize_system(system, external_variable_function)`: (states,
      rates, variables). */
  function InitializeSystem(es: ExternalSystem, init: ExternalInitialiser): (r: (Vector, Vector, Vector))
    requires ExternalWellFormed(es)
    ensures |r.0| == es.stateCount && |r.1| == es.stateCount && |r.2| == es.variableCount
    // the initialiser is the one handed in, and only initialisation sees it
    ensures r.0 == es.initialiseStatesAndConstants(Unset(es.stateCount), Unset(es.variableCount), init).0
    ensures r.2 == es.computeComputedConstants(
                     es.initialiseStatesAndConstants(Unset(es.stateCount), Unset(es.variableCount), init).1)
    ensures r.1 == Unset(es.stateCount)
  {
    var rates := Unset(es.stateCount);
    var states := Unset(es.stateCount);
    var variables := Unset(es.variableCount);
    var (states', variables') := es.initialiseStatesAndConstants(states, variables, init);
    (states', rates, es.computeComputedConstants(variables'))
  }

  /** The externally-driven model with `em` bound in: initialisation uses its
      initialiser, and the rate evaluation of one step is `compute_variables`
      followed by `compute_rates`, both with its updater. */
  function Bound(es: ExternalSystem, em: ExternalModule): (sys: System)
    requires ExternalWellFormed(es)
    ensures WellFormed(sys)
    ensures sys.stateCount == es.stateCount && sys.variableCount == es.variableCount
  {
    var init := em.initialiseExternalVariable;
    var upd := em.updateExternalVariable;
    System(
      es.stateCount,
      es.variableCount,
      (s: Vector, v: Vector) => es.initialiseStatesAndConstants(s, v, init),
      es.computeComputedConstants,
      (t: real, s: Vector, r: Vector, v: Vector) => es.computeRates(t, s, r, es.computeVariables(t, s, r, v, upd), upd))
  }

  /** The loop state before the first iteration is the externally initialised
      state at the start time, with unwritten rates. */
  lemma InitialIsExternallyInitialised(es: ExternalSystem, em: ExternalModule, t0: real)
    requires ExternalWellFormed(es)
    ensures EulerPlain.Initial(Bound(es, em), t0)
         == Machine(t0, InitializeSystem(es, em.initialiseExternalVariable).0,
                    InitializeSystem(es, em.initialiseExternalVariable).1,
                    InitializeSystem(es, em.initialiseExternalVariable).2)
  {
  }

  /** One iteration of the bound model: the variables are evaluated first and
      the rates see them; the state takes the Euler step along those rates. */
  lemma StepEvaluatesVariablesFirst(es: ExternalSystem, em: ExternalModule, h: real, m: Machine)
    requires ExternalWellFormed(es) && Shaped(es.stateCount, es.variableCount, m)
    ensures var upd := em.updateExternalVariable;
            var v := es.computeVariables(m.t, m.states, m.rates, m.variables, upd);
            var rv := es.computeRates(m.t, m.states, m.rates, v, upd);
            EulerPlain.Step(Bound(es, em), h, m) == Machine(m.t + h, EulerStep(m.states, rv.0, h), rv.0, rv.1)
  {
  }

  /** `euler_based_solver(system, step_size, interval, external_module)`. */
  method EulerBasedSolver(es: ExternalSystem, stepSize: StepSize, interval: seq<real>, em: ExternalModule)
    returns (x: seq<real>, results: seq<seq<real>>)
    requires ExternalWellFormed(es)
    requires Unwrappable(stepSize) && |interval| > 0
    requires Terminates(Start(interval), Unwrap(stepSize), End(interval))
    ensures Aligned(x, results, es.stateCount)
    ensures OnGrid(x, Start(interval), Unwrap(stepSize), End(interval))
    ensures |x| == 0 <==> Start(interval) + Unwrap(stepSize) > End(interval)
    // each sample is the loop state of the plain driver on the bound model
    ensures Records(x, results, EulerPlain.Trace(Bound(es, em), Unwrap(stepSize),
                                                 EulerPlain.Initial(Bound(es, em), Start(interval)), |x|))
  {
    var init0 := InitializeSystem(es, em.initialiseExternalVariable);
    var states, rates, variables := init0.0, init0.1, init0.2;
    var h := Unwrap(stepSize);
    results := EmptySeries(|states|);
    x := [];
    var t := Start(interval);
    var end := End(interval);
    ghost var sys := Bound(es, em);
    ghost var init := EulerPlain.Initial(sys, t);
    ghost var n := StepCount(t, h, end);
    ghost var trace := EulerPlain.Trace(sys, h, init, n);
    while t + h <= end
      invariant |x| <= n
      invariant Machine(t, states, rates, variables) == EulerPlain.Iterate(sys, h, init, |x|)
      invariant |results| == es.stateCount
      invariant Records(x, results, trace)
      decreases n - |x|
    {
      x, results, t, states, rates, variables := Iteration(es, em, h, init, trace, x, results, t, states, rates, variables);
    }
  }

  /** One iteration of the loop: record the sample, then advance. */
  method Iteration(es: ExternalSystem, em: ExternalModule, h: real, ghost init: Machine, ghost trace: seq<Machine>,
                   x: seq<real>, results: seq<seq<real>>, t: real, states: Vector, rates: Vector, variables: Vector)
    returns (x': seq<real>, results': seq<seq<real>>, t': real, states': Vector, rates': Vector, variables': Vector)
    requires ExternalWellFormed(es) && Shaped(es.stateCount, es.variableCount, init)
    requires |x| < |trace| && trace[|x|] == EulerPlain.Iterate(Bound(es, em), h, init, |x|)
    requires Machine(t, states, rates, variables) == EulerPlain.Iterate(Bound(es, em), h, init, |x|)
    requires |results| == es.stateCount && Records(x, results, trace)
    ensures |x'| == |x| + 1 && t' == t + h
    ensures Machine(t', states', rates', variables') == EulerPlain.Iterate(Bound(es, em), h, init, |x'|)
    ensures |results'| == es.stateCount && Records(x', results', trace)
  {
    RecordNext(x, results, trace);
    EulerPlain.IterateNext(Bound(es, em), h, init, |x|);
    x' := x + [t];
    results' := AppendSample(results, states);
    states', rates', variables' := Advance(es, em, h, t, states, rates, variables);
    t' := t + h;
  }

  /** The body of one iteration after the sample is recorded. */
  method Advance(es: ExternalSystem, em: ExternalModule, h: real, t: real,
                 states: Vector, rates: Vector, variables: Vector)
    returns (states': Vector, rates': Vector, variables': Vector)
    requires ExternalWellFormed(es) && Shaped(es.stateCount, es.variableCount, Machine(t, states, rates, variables))
    ensures Machine(t + h, states', rates', variables')
         == EulerPlain.Step(Bound(es, em), h, Machine(t, states, rates, variables))
    // every state moves by `h` times the rate computed from the freshly
    // evaluated variables
    ensures |states'| == |states| && |rates'| == |states| && |variables'| == |variables|
    ensures forall i :: 0 <= i < |states| ==> states'[i] == states[i] + h * rates'[i]
  {
    var v := es.computeVariables(t, states, rates, variables, em.updateExternalVariable);
    var rv := es.computeRates(t, states, rates, v, em.updateExternalVariable);
    rates', variables' := rv.0, rv.1;
    var delta := Scale(rates', h);
    states' := Add(states, delta);
  }

  /** The initialiser only shapes the start: two modules with the same updater
      whose initialisers produce the same initial arrays drive identical runs. */
  lemma {:induction false} InitialiserOnlyAtStart(es: ExternalSystem, em1: ExternalModule, em2: ExternalModule,
                                                  h: real, t0: real, k: nat)
    requires ExternalWellFormed(es)
    requires em1.updateExternalVariable == em2.updateExternalVariable
    requires InitializeSystem(es, em1.initialiseExternalVariable) == InitializeSystem(es, em2.initialiseExternalVariable)
    ensures EulerPlain.Iterate(Bound(es, em1), h, EulerPlain.Initial(Bound(es, em1), t0), k)
         == EulerPlain.Iterate(Bound(es, em2), h, EulerPlain.Initial(Bound(es, em2), t0), k)
    decreases k
  {
    var m1 := EulerPlain.Initial(Bound(es, em1), t0);
    var m2 := EulerPlain.Initial(Bound(es, em2), t0);
    InitialIsExternallyInitialised(es, em1, t0);
    InitialIsExternallyInitialised(es, em2, t0);
    assert m1 == m2;
    if k > 0 {
      InitialiserOnlyAtStart(es, em1, em2, h, t0, k - 1);
      var p := EulerPlain.Iterate(Bound(es, em1), h, m1, k - 1);
      StepEvaluatesVariablesFirst(es, em1, h, p);
      StepEvaluatesVariablesFirst(es, em2, h, p);
    }
  }
}

=== FILE: euler_plain.dfy ===
/**
 The plain fixed-step explicit Euler driver (solver version 0.1.0): sample
 the state, evaluate the rates, step `s + h·r`, advance the time, for as
 long as `t + h <= end`.
 */
module EulerPlain {
  import opened Vectors
  import opened Schedule
  import opened ModelContract

  /** `initialize_system`: the three arrays the driver threads through the
      loop, in the order (states, rates, variables). */
  function InitializeSystem(sys: System): (r: (Vector, Vector, Vector))
    requires WellFormed(sys)
    ensures |r.0| == sys.stateCount && |r.1| == sys.stateCount && |r.2| == sys.variableCount
    // the states are those initialisation wrote; computing the computed
    // constants afterwards sees initialisation's variables and cannot touch the states
    ensures r.0 == sys.initializeStatesAndConstants(Unset(sys.stateCount), Unset(sys.variableCount)).0
    ensures r.2 == sys.computeComputedConstants(
                     sys.initializeStatesAndConstants(Unset(sys.stateCount), Unset(sys.variableCount)).1)
    // initialisation never writes the rates
    ensures r.1 == Unset(sys.stateCount)
  {
    var rates := Unset(sys.stateCount);
    var states := Unset(sys.stateCount);
    var variables := Unset(sys.variableCount);
    var (states', variables') := sys.initializeStatesAndConstants(states, variables);
    (states', rates, sys.computeComputedConstants(variables'))
  }

  /** The loop state before the first iteration. */
  function Initial(sys: System, t0: real): (m: Machine)
    requires WellFormed(sys)
    ensures Shaped(sys.stateCount, sys.variableCount, m) && m.t == t0
  {
    var (states, rates, variables) := InitializeSystem(sys);
    Machine(t0, states, rates, variables)
  }

  /** `update`: the rate vector `compute_rates` writes for this time and state. */
  function Update(sys: System, voi: real, states: Vector, rates: Vector, variables: Vector): (r: Vector)
    requires WellFormed(sys)
    requires |states| == sys.stateCount && |rates| == sys.stateCount && |variables| == sys.variableCount
    ensures |r| == |states|
  {
    sys.computeRates(voi, states, rates, variables).0
  }

  /** One loop iteration after the sample has been recorded. */
  function Step(sys: System, h: real, m: Machine): (r: Machine)
    requires WellFormed(sys) && Shaped(sys.stateCount, sys.variableCount, m)
    ensures Shaped(sys.stateCount, sys.variableCount, r)
    ensures r.t == m.t + h
  {
    var (rates, variables) := sys.computeRates(m.t, m.states, m.rates, m.variables);
    Machine(m.t + h, EulerStep(m.states, rates, h), rates, variables)
  }

  /** One iteration keeps the rates `update` returns for the current time and
      state, and moves every state by `h` times its rate. */
  lemma StepIsEuler(sys: System, h: real, m: Machine)
    requires WellFormed(sys) && Shaped(sys.stateCount, sys.variableCount, m)
    ensures Step(sys, h, m).rates == Update(sys, m.t, m.states, m.rates, m.variables)
    ensures forall i :: 0 <= i < sys.stateCount ==>
              Step(sys, h, m).states[i] == m.states[i] + h * Step(sys, h, m).rates[i]
  {
  }

  /** The loop state after `k` iterations. */
  function Iterate(sys: System, h: real, m: Machine, k: nat): (r: Machine)
    requires WellFormed(sys) && Shaped(sys.stateCount, sys.variableCount, m)
    ensures Shaped(sys.stateCount, sys.variableCount, r)
    ensures r.t == GridTime(m.t, h, k)
    decreases k
  {
    if k == 0 then m else Step(sys, h, Iterate(sys, h, m, k - 1))
  }

  /** Each iteration is one `Step` from the previous loop state. */
  lemma IterateNext(sys: System, h: real, init: Machine, k: nat)
    requires WellFormed(sys) && Shaped(sys.stateCount, sys.variableCount, init)
    ensures Iterate(sys, h, init, k + 1) == Step(sys, h, Iterate(sys, h, init, k))
  {
  }

  /** The first `n` loop states. */
  function Trace(sys: System, h: real, init: Machine, n: nat): (r: seq<Machine>)
    requires WellFormed(sys) && Shaped(sys.stateCount, sys.variableCount, init)
    ensures |r| == n
    ensures forall k :: 0 <= k < n ==> r[k] == Iterate(sys, h, init, k)
  {
    seq(n, k requires 0 <= k < n => Iterate(sys, h, init, k))
  }

  /** The first `m` loop states begin every longer trace, and loop state `k`
      is at time `t0 + k·h`. */
  lemma TracePrefix(sys: System, h: real, init: Machine, n: nat, m: nat)
    requires WellFormed(sys) && Shaped(sys.stateCount, sys.variableCount, init)
    requires m <= n
    ensures Timed(Trace(sys, h, init, n), init.t, h)
    ensures Trace(sys, h, init, n)[..m] == Trace(sys, h, init, m)
  {
  }

  /** `euler_based_solver`: the sampled times and one series per state. */
  method EulerBasedSolver(sys: System, stepSize: StepSize, interval: seq<real>)
    returns (x: seq<real>, results: seq<seq<real>>)
    requires WellFormed(sys)
    requires Unwrappable(stepSize) && |interval| > 0
    requires Terminates(Start(interval), Unwrap(stepSize), End(interval))
    ensures Aligned(x, results, sys.stateCount)
    ensures OnGrid(x, Start(interval), Unwrap(stepSize), End(interval))
    ensures |x| == 0 <==> Start(interval) + Unwrap(stepSize) > End(interval)
    // each sample is the loop state before the step taken from that time
    ensures Records(x, results, Trace(sys, Unwrap(stepSize), Initial(sys, Start(interval)), |x|))
  {
    var init0 := InitializeSystem(sys);
    var states, rates, variables := init0.0, init0.1, init0.2;
    var h := Unwrap(stepSize);
    results := EmptySeries(|states|);
    x := [];
    var t := Start(interval);
    var end := End(interval);
    ghost var init := Initial(sys, t);
    ghost var n := StepCount(t, h, end);
    ghost var trace := Trace(sys, h, init, n);
    while t + h <= end
      invariant |x| <= n
      invariant Machine(t, states, rates, variables) == Iterate(sys, h, init, |x|)
      invariant |results| == sys.stateCount
      invariant Records(x, results, trace)
      decreases n - |x|
    {
      x, results, t, states, rates, variables := Iteration(sys, h, init, trace, x, results, t, states, rates, variables);
    }
    TracePrefix(sys, h, init, n, |x|);
    CloseRecord(x, results, trace, init.t, h, end);
  }

  /** One iteration of the loop: record the sample, then advance. */
  method Iteration(sys: System, h: real, ghost init: Machine, ghost trace: seq<Machine>,
                   x: seq<real>, results: seq<seq<real>>, t: real, states: Vector, rates: Vector, variables: Vector)
    returns (x': seq<real>, results': seq<seq<real>>, t': real, states': Vector, rates': Vector, variables': Vector)
    requires WellFormed(sys) && Shaped(sys.stateCount, sys.variableCount, init)
    requires |x| < |trace| && trace[|x|] == Iterate(sys, h, init, |x|)
    requires Machine(t, states, rates, variables) == Iterate(sys, h, init, |x|)
    requires |results| == sys.stateCount && Records(x, results, trace)
    ensures |x'| == |x| + 1 && t' == t + h
    ensures Machine(t', states', rates', variables') == Iterate(sys, h, init, |x'|)
    ensures |results'| == sys.stateCount && Records(x', results', trace)
  {
    RecordNext(x, results, trace);
    IterateNext(sys, h, init, |x|);
    x' := x + [t];
    results' := AppendSample(results, states);
    states', rates', variables' := Advance(sys, h, t, states, rates, variables);
    t' := t + h;
  }

  /** The body of one iteration after the sample is recorded: the rates at
      the current time and state, then the Euler step along them. */
  method Advance(sys: System, h: real, t: real, states: Vector, rates: Vector, variables: Vector)
    returns (states': Vector, rates': Vector, variables': Vector)
    requires WellFormed(sys) && Shaped(sys.stateCount, sys.variableCount, Machine(t, states, rates, variables))
    ensures Machine(t + h, states', rates', variables') == Step(sys, h, Machine(t, states, rates, variables))
    // the kept rates are those `update` returns for the current time and
    // state, and every state moves by `h` times its rate
    ensures rates' == Update(sys, t, states, rates, variables)
    ensures |states'| == |states|
    ensures forall i :: 0 <= i < |states| ==> states'[i] == states[i] + h * rates'[i]
  {
    var rv := sys.computeRates(t, states, rates, variables);
    rates', variables' := rv.0, rv.1;
    var delta := Scale(rates', h);
    states' := Add(states, delta);
  }

  /** The rates `update` returns at the `k`-th loop state. */
  function SampleRate(sys: System, h: real, init: Machine, k: nat): (r: Vector)
    requires WellFormed(sys) && Shaped(sys.stateCount, sys.variableCount, init)
    ensures |r| == sys.stateCount
  {
    var m := Iterate(sys, h, init, k);
    Update(sys, m.t, m.states, m.rates, m.variables)
  }

  /** Consecutive samples differ by one Euler step along the rates
      evaluated at the earlier sample. */
  ghost predicate EulerIncrements(sys: System, h: real, init: Machine, x: seq<real>, results: seq<seq<real>>)
    requires WellFormed(sys) && Shaped(sys.stateCount, sys.variableCount, init)
    requires Aligned(x, results, sys.stateCount)
  {
    forall i, k :: 0 <= i < |results| && 0 <= k < |x| - 1 ==>
      results[i][k + 1] == results[i][k] + h * SampleRate(sys, h, init, k)[i]
  }

  /** Any output that records the loop states, as `EulerBasedSolver`'s does,
      satisfies the Euler increment law. */
  lemma SampledSteps(sys: System, h: real, init: Machine, x: seq<real>, results: seq<seq<real>>)
    requires WellFormed(sys) && Shaped(sys.stateCount, sys.variableCount, init)
    requires Aligned(x, results, sys.stateCount)
    requires Records(x, results, Trace(sys, h, init, |x|))
    ensures EulerIncrements(sys, h, init, x, results)
  {
    forall k | 0 <= k < |x| - 1
      ensures forall i :: 0 <= i < |results| ==>
                results[i][k + 1] == results[i][k] + h * SampleRate(sys, h, init, k)[i]
    {
      SampledStep(sys, h, init, results, k, Iterate(sys, h, init, k), Iterate(sys, h, init, k + 1));
    }
  }

  /** Two consecutive recorded loop states differ by one Euler step. */
  lemma SampledStep(sys: System, h: real, init: Machine, results: seq<seq<real>>, k: nat, m: Machine, m': Machine)
    requires WellFormed(sys) && Shaped(sys.stateCount, sys.variableCount, init)
    requires m == Iterate(sys, h, init, k) && m' == Iterate(sys, h, init, k + 1)
    requires |results| == sys.stateCount
    requires forall i :: 0 <= i < |results| ==> |results[i]| > k + 1
    requires forall i :: 0 <= i < |results| ==> results[i][k] == m.states[i] && results[i][k + 1] == m'.states[i]
    ensures forall i :: 0 <= i < |results| ==>
              results[i][k + 1] == results[i][k] + h * SampleRate(sys, h, init, k)[i]
  {
    IterateNext(sys, h, init, k);
    StepIsEuler(sys, h, m);
  }

  /** The model's rate law returns the rate vector `c` on every input of the
      declared sizes. */
  ghost predicate ConstantRate(sys: System, c: Vector) {
    forall t, s, r, v ::
      |s| == sys.stateCount && |r| == sys.stateCount && |v| == sys.variableCount ==>
        sys.computeRates(t, s, r, v).0 == c
  }

  /** A rate law that returns the same rate vector `c` on arrays of the
      declared sizes (whatever the time, state and previous arrays) gives `s_k = s_0 + k·h·c`: the linear
      trajectory `x0 + n·h` for a unit rate. */
  lemma {:induction false} ConstantRateLaw(sys: System, h: real, m: Machine, c: Vector, k: nat)
    requires WellFormed(sys) && Shaped(sys.stateCount, sys.variableCount, m)
    requires |c| == sys.stateCount
    requires ConstantRate(sys, c)
    ensures Iterate(sys, h, m, k).states == EulerStep(m.states, c, (k as real) * h)
    decreases k
  {
    if k == 0 {
      assert (k as real) * h == 0.0;
      EulerStepZero(m.states, c);
    } else {
      var j := k - 1;
      ConstantRateLaw(sys, h, m, c, j);
      ConstantRateNext(sys, h, m, c, j);
      assert j + 1 == k;
    }
  }

  /** The closed form carries over from `j` iterations to `j + 1`. */
  lemma ConstantRateNext(sys: System, h: real, m: Machine, c: Vector, j: nat)
    requires WellFormed(sys) && Shaped(sys.stateCount, sys.variableCount, m)
    requires |c| == sys.stateCount
    requires ConstantRate(sys, c)
    requires Iterate(sys, h, m, j).states == EulerStep(m.states, c, (j as real) * h)
    ensures Iterate(sys, h, m, j + 1).states == EulerStep(m.states, c, ((j + 1) as real) * h)
  {
    var prev := Iterate(sys, h, m, j);
    var before := (j as real) * h;
    calc {
      Iterate(sys, h, m, j + 1).states;
      { IterateNext(sys, h, m, j); }
      Step(sys, h, prev).states;
      { ConstantRateStep(sys, h, prev, c); }
      EulerStep(EulerStep(m.states, c, before), c, h);
      { EulerStepsCompose(m.states, c, before, h); }
      EulerStep(m.states, c, before + h);
      { assert before + h == ((j + 1) as real) * h; }
      EulerStep(m.states, c, ((j + 1) as real) * h);
    }
  }

  /** One iteration of a constant rate law is one Euler step along it. */
  lemma ConstantRateStep(sys: System, h: real, m: Machine, c: Vector)
    requires WellFormed(sys) && Shaped(sys.stateCount, sys.variableCount, m)
    requires |c| == sys.stateCount
    requires ConstantRate(sys, c)
    ensures Step(sys, h, m).states == EulerStep(m.states, c, h)
  {
    StepIsEuler(sys, h, m);
    assert Step(sys, h, m).rates == c;
  }
}

=== FILE: euler_reset_capable.dfy ===
/**
 The reset-capable fixed-step Euler driver (solver version 0.1.0, reset
 capable). Before the loop it evaluates the reset test values at the start
 time and keeps a copy as the reference; every iteration samples the state,
 takes one Euler step, evaluates the test values of the stepped state at the
 pre-step time, flags reset `i` when `test[i]·reference[i] <= 0`, and lets
 the model apply the flagged resets. The reference is never refreshed.
 */
module EulerResetCapable {
  import opened Vectors
  import opened Schedule
  import opened ModelContract
  import opened ResetRule

  /** `initialize_system`: (states, rates, variables, resets). */
  function InitializeSystem(rs: ResetSystem): (r: (Vector, Vector, Vector, Vector))
    requires ResetWellFormed(rs)
    ensures |r.0| == rs.base.stateCount && |r.1| == rs.base.stateCount
    ensures |r.2| == rs.base.variableCount && |r.3| == rs.resetCount
    // initialisation writes states and variables, then the computed constants
    // are derived from initialisation's variables; rates and test values stay unwritten
    ensures r.0 == rs.base.initializeStatesAndConstants(Unset(rs.base.stateCount), Unset(rs.base.variableCount)).0
    ensures r.2 == rs.base.computeComputedConstants(
                     rs.base.initializeStatesAndConstants(Unset(rs.base.stateCount), Unset(rs.base.variableCount)).1)
    ensures r.1 == Unset(rs.base.stateCount) && r.3 == Unset(rs.resetCount)
  {
    var sys := rs.base;
    var rates := Unset(sys.stateCount);
    var states := Unset(sys.stateCount);
    var variables := Unset(sys.variableCount);
    var resets := Unset(rs.resetCount);
    var (states', variables') := sys.initializeStatesAndConstants(states, variables);
    (states', rates, sys.computeComputedConstants(variables'), resets)
  }

  /** The loop state before the first iteration. */
  function Initial(rs: ResetSystem, t0: real): (m: Machine)
    requires ResetWellFormed(rs)
    ensures Shaped(rs.base.stateCount, rs.base.variableCount, m) && m.t == t0
  {
    var (states, rates, variables, _) := InitializeSystem(rs);
    Machine(t0, states, rates, variables)
  }

  /** The reference test vector: the test values of the initial state at the
      start time, computed into the freshly created reset array. */
  function Reference(rs: ResetSystem, init: Machine): (ref: Vector)
    requires ResetWellFormed(rs) && Shaped(rs.base.stateCount, rs.base.variableCount, init)
    ensures |ref| == rs.resetCount
  {
    rs.computeResetTestValueDifferences(init.t, init.states, init.variables, Unset(rs.resetCount))
  }

  /** The rates and variables `compute_rates` writes at loop state `m`. */
  function RatesAt(rs: ResetSystem, m: Machine): (r: (Vector, Vector))
    requires ResetWellFormed(rs) && Shaped(rs.base.stateCount, rs.base.variableCount, m)
    ensures |r.0| == rs.base.stateCount && |r.1| == rs.base.variableCount
  {
    rs.base.computeRates(m.t, m.states, m.rates, m.variables)
  }

  /** The state after the Euler step from `m`, before any reset. */
  function Stepped(rs: ResetSystem, h: real, m: Machine): (s: Vector)
    requires ResetWellFormed(rs) && Shaped(rs.base.stateCount, rs.base.variableCount, m)
    ensures |s| == rs.base.stateCount
    ensures forall i :: 0 <= i < |s| ==> s[i] == m.states[i] + h * RatesAt(rs, m).0[i]
  {
    EulerStep(m.states, RatesAt(rs, m).0, h)
  }

  /** The activation mask of the step from `m`: the test values of the
      stepped state, at the time of `m`, compared with the reference. The
      scratch array the test values are written into holds a copy of the
      reference on every iteration. */
  function StepActivation(rs: ResetSystem, h: real, ref: Vector, m: Machine): (active: seq<bool>)
    requires ResetWellFormed(rs) && Shaped(rs.base.stateCount, rs.base.variableCount, m)
    requires |ref| == rs.resetCount
    ensures |active| == rs.resetCount
  {
    var tests := rs.computeResetTestValueDifferences(m.t, Stepped(rs, h, m), RatesAt(rs, m).1, ref);
    Activated(tests, ref)
  }

  /** One loop iteration after the sample has been recorded. */
  function Step(rs: ResetSystem, h: real, ref: Vector, m: Machine): (r: Machine)
    requires ResetWellFormed(rs) && Shaped(rs.base.stateCount, rs.base.variableCount, m)
    requires |ref| == rs.resetCount
    ensures Shaped(rs.base.stateCount, rs.base.variableCount, r)
    ensures r.t == m.t + h
  {
    var (rates, variables) := RatesAt(rs, m);
    var states := rs.applyResets(m.t, Stepped(rs, h, m), variables, StepActivation(rs, h, ref, m));
    Machine(m.t + h, states, rates, variables)
  }

  /** The loop state after `k` iterations, every one compared against `ref`. */
  function Iterate(rs: ResetSystem, h: real, ref: Vector, m: Machine, k: nat): (r: Machine)
    requires ResetWellFormed(rs) && Shaped(rs.base.stateCount, rs.base.variableCount, m)
    requires |ref| == rs.resetCount
    ensures Shaped(rs.base.stateCount, rs.base.variableCount, r)
    ensures r.t == GridTime(m.t, h, k)
    decreases k
  {
    if k == 0 then m else Step(rs, h, ref, Iterate(rs, h, ref, m, k - 1))
  }

  /** The first `n` loop states. */
  function Trace(rs: ResetSystem, h: real, ref: Vector, init: Machine, n: nat): (r: seq<Machine>)
    requires ResetWellFormed(rs) && Shaped(rs.base.stateCount, rs.base.variableCount, init)
    requires |ref| == rs.resetCount
    ensures |r| == n
    ensures forall k :: 0 <= k < n ==> r[k] == Iterate(rs, h, ref, init, k)
  {
    seq(n, k requires 0 <= k < n => Iterate(rs, h, ref, init, k))
  }

  /** The trajectory of a run from `t0`, every step compared against the one
      reference computed at `t0`. */
  function Run(rs: ResetSystem, h: real, t0: real, n: nat): (r: seq<Machine>)
    requires ResetWellFormed(rs)
    ensures |r| == n
  {
    var init := Initial(rs, t0);
    Trace(rs, h, Reference(rs, init), init, n)
  }

  /** `euler_based_solver` with reset detection and application. */
  method EulerBasedSolver(rs: ResetSystem, stepSize: StepSize, interval: seq<real>)
    returns (x: seq<real>, results: seq<seq<real>>)
    requires ResetWellFormed(rs)
    requires Unwrappable(stepSize) && |interval| > 0
    requires Terminates(Start(interval), Unwrap(stepSize), End(interval))
    ensures Aligned(x, results, rs.base.stateCount)
    ensures OnGrid(x, Start(interval), Unwrap(stepSize), End(interval))
    ensures |x| == 0 <==> Start(interval) + Unwrap(stepSize) > End(interval)
    // each sample is the loop state (after the previous step's resets) before
    // the step from that time, and every step compares against the t0 reference
    ensures Records(x, results, Run(rs, Unwrap(stepSize), Start(interval), |x|))
  {
    var init0 := InitializeSystem(rs);
    var states, rates, variables, resets := init0.0, init0.1, init0.2, init0.3;
    var h := Unwrap(stepSize);
    results := EmptySeries(|states|);
    x := [];
    var t := Start(interval);
    var end := End(interval);
    ghost var init := Initial(rs, t);
    resets := rs.computeResetTestValueDifferences(t, states, variables, resets);
    var newResets := resets;
    ghost var n := StepCount(t, h, end);
    ghost var trace := Trace(rs, h, newResets, init, n);
    while t + h <= end
      invariant |x| <= n
      invariant newResets == Reference(rs, init)
      invariant resets == newResets
      invariant Machine(t, states, rates, variables) == Iterate(rs, h, newResets, init, |x|)
      invariant |results| == rs.base.stateCount
      invariant Records(x, results, trace)
      decreases n - |x|
    {
      x, results, t, states, rates, variables, resets :=
        Iteration(rs, h, init, trace, newResets, x, results, t, states, rates, variables, resets);
    }
  }

  /** Each iteration is one `Step` from the previous loop state. */
  lemma IterateNext(rs: ResetSystem, h: real, ref: Vector, init: Machine, k: nat)
    requires ResetWellFormed(rs) && Shaped(rs.base.stateCount, rs.base.variableCount, init)
    requires |ref| == rs.resetCount
    ensures Iterate(rs, h, ref, init, k + 1) == Step(rs, h, ref, Iterate(rs, h, ref, init, k))
  {
  }

  /** One iteration of the loop: record the sample, then advance. */
  method Iteration(rs: ResetSystem, h: real, ghost init: Machine, ghost trace: seq<Machine>, newResets: Vector,
                   x: seq<real>, results: seq<seq<real>>, t: real, states: Vector, rates: Vector, variables: Vector,
                   resets: Vector)
    returns (x': seq<real>, results': seq<seq<real>>, t': real, states': Vector, rates': Vector, variables': Vector,
             resets': Vector)
    requires ResetWellFormed(rs) && Shaped(rs.base.stateCount, rs.base.variableCount, init)
    requires |newResets| == rs.resetCount && resets == newResets
    requires |x| < |trace| && trace[|x|] == Iterate(rs, h, newResets, init, |x|)
    requires Machine(t, states, rates, variables) == Iterate(rs, h, newResets, init, |x|)
    requires |results| == rs.base.stateCount && Records(x, results, trace)
    ensures |x'| == |x| + 1 && t' == t + h && resets' == newResets
    ensures Machine(t', states', rates', variables') == Iterate(rs, h, newResets, init, |x'|)
    ensures |results'| == rs.base.stateCount && Records(x', results', trace)
  {
    RecordNext(x, results, trace);
    IterateNext(rs, h, newResets, init, |x|);
    x' := x + [t];
    results' := AppendSample(results, states);
    var stepped, active;
    states', rates', variables', resets', stepped, active := Advance(rs, h, t, states, rates, variables, resets, newResets);
    t' := t + h;
  }

  /** The body of one iteration after the sample is recorded: the rates, the
      Euler step, the test values of the stepped state at the pre-step time
      written into the scratch array, the activation mask against the
      reference, the resets, and the scratch array reset to a copy of the
      reference. */
  method Advance(rs: ResetSystem, h: real, t: real, states: Vector, rates: Vector, variables: Vector,
                 resets: Vector, newResets: Vector)
    returns (states': Vector, rates': Vector, variables': Vector, resets': Vector, stepped: Vector, active: seq<bool>)
    requires ResetWellFormed(rs) && Shaped(rs.base.stateCount, rs.base.variableCount, Machine(t, states, rates, variables))
    requires |newResets| == rs.resetCount && resets == newResets
    ensures Machine(t + h, states', rates', variables') == Step(rs, h, newResets, Machine(t, states, rates, variables))
    ensures resets' == newResets
    // before any reset every state moves by `h` times its rate
    ensures |stepped| == |states| && |rates'| == |states|
    ensures forall i :: 0 <= i < |states| ==> stepped[i] == states[i] + h * rates'[i]
    // reset `i` is flagged iff the test value of the stepped state, taken at
    // the pre-step time, and the reference meet at or across zero
    ensures |active| == rs.resetCount
    ensures var tests := rs.computeResetTestValueDifferences(t, stepped, variables', newResets);
            forall i :: 0 <= i < rs.resetCount ==> (active[i] <==> tests[i] * newResets[i] <= 0.0)
    // the model applies exactly the flagged resets to the stepped state
    ensures states' == rs.applyResets(t, stepped, variables', active)
  {
    var rv := rs.base.computeRates(t, states, rates, variables);
    rates', variables' := rv.0, rv.1;
    var delta := Scale(rates', h);
    stepped := Add(states, delta);
    var tests := rs.computeResetTestValueDifferences(t, stepped, variables', resets);
    active := Activated(tests, newResets);
    states' := rs.applyResets(t, stepped, variables', active);
    resets' := newResets;
  }

  /** A model whose `apply_resets` leaves the state alone when no flag is set. */
  ghost predicate InactiveResetsKeepState(rs: ResetSystem) {
    forall t: real, s: Vector, v: Vector, active: seq<bool> ::
      NoneActive(active) ==> rs.applyResets(t, s, v, active) == s
  }

  /** When no reset fires on a step, the next loop state is the plain Euler
      step `s + h·r` of the previous one along the rates at its time. */
  lemma NoResetIsEuler(rs: ResetSystem, h: real, ref: Vector, m: Machine)
    requires ResetWellFormed(rs) && Shaped(rs.base.stateCount, rs.base.variableCount, m)
    requires |ref| == rs.resetCount
    requires InactiveResetsKeepState(rs)
    requires NoneActive(StepActivation(rs, h, ref, m))
    ensures forall i :: 0 <= i < rs.base.stateCount ==>
              Step(rs, h, ref, m).states[i] == m.states[i] + h * RatesAt(rs, m).0[i]
  {
    assert Step(rs, h, ref, m).states == Stepped(rs, h, m);
  }

  /** In a recorded run, a step on which no reset fires moves every series
      by `h` times the rate evaluated at the earlier sample. */
  lemma SampledNoResetStep(rs: ResetSystem, h: real, t0: real, x: seq<real>, results: seq<seq<real>>, k: nat)
    requires ResetWellFormed(rs) && InactiveResetsKeepState(rs)
    requires Aligned(x, results, rs.base.stateCount)
    requires Records(x, results, Run(rs, h, t0, |x|)) && k + 1 < |x|
    requires NoneActive(StepActivation(rs, h, Reference(rs, Initial(rs, t0)), Run(rs, h, t0, |x|)[k]))
    ensures forall i :: 0 <= i < |results| ==>
              results[i][k + 1] == results[i][k] + h * RatesAt(rs, Run(rs, h, t0, |x|)[k]).0[i]
  {
    var run := Run(rs, h, t0, |x|);
    var ref := Reference(rs, Initial(rs, t0));
    ReferenceIsFixed(rs, h, t0, |x|, k);
    NoResetIsEuler(rs, h, ref, run[k]);
  }

  /** The mask of every step is taken against the same reference, the test
      values at the start time; it is never refreshed from later states. */
  lemma ReferenceIsFixed(rs: ResetSystem, h: real, t0: real, n: nat, k: nat)
    requires ResetWellFormed(rs) && k + 1 < n
    ensures var init := Initial(rs, t0);
            var ref := Reference(rs, init);
            Run(rs, h, t0, n)[k + 1] == Step(rs, h, ref, Run(rs, h, t0, n)[k])
  {
  }
}

=== FILE: model_contract.dfy ===
/**
 What a generated cell model hands to the drivers. The generated Python
 functions mutate the lists they are given; here each callback is a total
 function returning the new contents of the arrays the model contract lets
 it write, and a well-formed model keeps every array at its declared size.
 */
module ModelContract {
  import opened Vectors
  import opened Schedule

  /** The base capability used by the plain Euler driver. `computeRates`
      receives `(voi, states, rates, variables)` and returns the new rates and
      variables: generated rate code also stores algebraic variables. */
  datatype System = System(
    stateCount: nat,
    variableCount: nat,
    initializeStatesAndConstants: (Vector, Vector) -> (Vector, Vector),
    computeComputedConstants: Vector -> Vector,
    computeRates: (real, Vector, Vector, Vector) -> (Vector, Vector))

  /** A reset-capable model: the base capability plus one test value per
      reset, `computeResetTestValueDifferences(voi, states, variables, tests)`
      returning the new test vector, and `applyResets(voi, states, variables,
      active)` returning the new states. */
  datatype ResetSystem = ResetSystem(
    base: System,
    resetCount: nat,
    computeResetTestValueDifferences: (real, Vector, Vector, Vector) -> Vector,
    applyResets: (real, Vector, Vector, seq<bool>) -> Vector)

  /** `initialise_external_variable`: the initial value of an external slot. */
  type ExternalInitialiser = nat -> real

  /** `update_external_variable(voi, states, rates, variables, index)`. */
  type ExternalUpdater = (real, Vector, Vector, Vector, nat) -> real

  /** The module providing external variables to an externally-driven model. */
  datatype ExternalModule = ExternalModule(
    initialiseExternalVariable: ExternalInitialiser,
    updateExternalVariable: ExternalUpdater)

  /** An externally-driven model: initialisation takes the initialiser, and
      both per-step evaluations take the updater. */
  datatype ExternalSystem = ExternalSystem(
    stateCount: nat,
    variableCount: nat,
    initialiseStatesAndConstants: (Vector, Vector, ExternalInitialiser) -> (Vector, Vector),
    computeComputedConstants: Vector -> Vector,
    computeVariables: (real, Vector, Vector, Vector, ExternalUpdater) -> Vector,
    computeRates: (real, Vector, Vector, Vector, ExternalUpdater) -> (Vector, Vector))

  /** The driver's loop state: time, and the three arrays it threads through
      every step. */
  datatype Machine = Machine(t: real, states: Vector, rates: Vector, variables: Vector)

  /** The arrays of `m` have the sizes the model declares. */
  predicate Shaped(stateCount: nat, variableCount: nat, m: Machine) {
    && |m.states| == stateCount
    && |m.rates| == stateCount
    && |m.variables| == variableCount
  }

  /** Every base callback keeps the arrays at their declared sizes. */
  ghost predicate WellFormed(sys: System) {
    && (forall s: Vector, v: Vector ::
          |s| == sys.stateCount && |v| == sys.variableCount ==>
            && |sys.initializeStatesAndConstants(s, v).0| == sys.stateCount
            && |sys.initializeStatesAndConstants(s, v).1| == sys.variableCount)
    && (forall v: Vector ::
          |v| == sys.variableCount ==> |sys.computeComputedConstants(v)| == sys.variableCount)
    && (forall t: real, s: Vector, r: Vector, v: Vector ::
          |s| == sys.stateCount && |r| == sys.stateCount && |v| == sys.variableCount ==>
            && |sys.computeRates(t, s, r, v).0| == sys.stateCount
            && |sys.computeRates(t, s, r, v).1| == sys.variableCount)
  }

  /** The base capability is well formed, the test vector keeps one entry per
      reset, and applying resets keeps the state size. */
  ghost predicate ResetWellFormed(rs: ResetSystem) {
    && WellFormed(rs.base)
    && (forall t: real, s: Vector, v: Vector, tests: Vector ::
          |s| == rs.base.stateCount && |v| == rs.base.variableCount && |tests| == rs.resetCount ==>
            |rs.computeResetTestValueDifferences(t, s, v, tests)| == rs.resetCount)
    && (forall t: real, s: Vector, v: Vector, active: seq<bool> ::
          |s| == rs.base.stateCount && |v| == rs.base.variableCount && |active| == rs.resetCount ==>
            |rs.applyResets(t, s, v, active)| == rs.base.stateCount)
  }

  /** Every callback of an externally-driven model keeps the array sizes,
      whatever initialiser or updater it is given. */
  ghost predicate ExternalWellFormed(es: ExternalSystem) {
    && (forall s: Vector, v: Vector, init: ExternalInitialiser ::
          |s| == es.stateCount && |v| == es.variableCount ==>
            && |es.initialiseStatesAndConstants(s, v, init).0| == es.stateCount
            && |es.initialiseStatesAndConstants(s, v, init).1| == es.variableCount)
    && (forall v: Vector ::
          |v| == es.variableCount ==> |es.computeComputedConstants(v)| == es.variableCount)
    && (forall t: real, s: Vector, r: Vector, v: Vector, u: ExternalUpdater ::
          |s| == es.stateCount && |r| == es.stateCount && |v| == es.variableCount ==>
            |es.computeVariables(t, s, r, v, u)| == es.variableCount)
    && (forall t: real, s: Vector, r: Vector, v: Vector, u: ExternalUpdater ::
          |s| == es.stateCount && |r| == es.stateCount && |v| == es.variableCount ==>
            && |es.computeRates(t, s, r, v, u).0| == es.stateCount
            && |es.computeRates(t, s, r, v, u).1| == es.variableCount)
  }

  /** The result layout every driver returns: one series per state, each as
      long as the list of sampled times. */
  predicate Aligned(x: seq<real>, results: seq<seq<real>>, stateCount: nat) {
    && |results| == stateCount
    && forall i :: 0 <= i < |results| ==> |results[i]| == |x|
  }

  /** `for index, value in enumerate(states): results[index].append(value)`. */
  function AppendSample(results: seq<seq<real>>, states: Vector): (r: seq<seq<real>>)
    requires |states| <= |results|
    ensures |r| == |results|
    ensures forall i :: 0 <= i < |states| ==> r[i] == results[i] + [states[i]]
    ensures forall i :: |states| <= i < |results| ==> r[i] == results[i]
  {
    seq(|results|, i requires 0 <= i < |results| =>
      if i < |states| then results[i] + [states[i]] else results[i])
  }

  /** `[[] for _ in range(len(states))]`. */
  function EmptySeries(n: nat): (r: seq<seq<real>>)
    ensures |r| == n
    ensures forall i :: 0 <= i < n ==> r[i] == []
  {
    seq(n, _ => [])
  }

  /** `x` and `results` record, in order, the first `|x|` loop states of
      `trace`: the time of each, and each state entry in its own series. */
  predicate Records(x: seq<real>, results: seq<seq<real>>, trace: seq<Machine>) {
    && |x| <= |trace|
    && (forall i :: 0 <= i < |results| ==> |results[i]| == |x|)
    && (forall k :: 0 <= k < |x| ==> x[k] == trace[k].t && |trace[k].states| == |results|)
    && (forall i, k :: 0 <= i < |results| && 0 <= k < |x| ==> results[i][k] == trace[k].states[i])
  }

  /** Recording the next loop state of the trace, as the drivers do at the
      top of every iteration, keeps the record. */
  lemma RecordNext(x: seq<real>, results: seq<seq<real>>, trace: seq<Machine>)
    requires Records(x, results, trace) && |x| < |trace|
    requires |trace[|x|].states| == |results|
    ensures Records(x + [trace[|x|].t], AppendSample(results, trace[|x|].states), trace)
  {
    var m := trace[|x|];
    var results' := AppendSample(results, m.states);
    forall i, k | 0 <= i < |results'| && 0 <= k < |x| + 1
      ensures results'[i][k] == trace[k].states[i]
    {
      assert results'[i] == results[i] + [m.states[i]];
    }
  }

  /** Loop state `k` of `trace` is at time `t0 + k·h`. */
  predicate Timed(trace: seq<Machine>, t0: real, h: real) {
    forall k :: 0 <= k < |trace| ==> trace[k].t == GridTime(t0, h, k)
  }

  /** When the loop exits, a record of a timed trace whose every state passed
      the guard has its times on the grid, and exactly the states sampled. */
  lemma CloseRecord(x: seq<real>, results: seq<seq<real>>, trace: seq<Machine>, t0: real, h: real, end: real)
    requires Records(x, results, trace) && Timed(trace, t0, h)
    requires forall k :: 0 <= k < |trace| ==> GridTime(t0, h, k) + h <= end
    requires GridTime(t0, h, |x|) + h > end
    ensures OnGrid(x, t0, h, end)
    ensures |x| == 0 <==> t0 + h > end
    ensures Records(x, results, trace[..|x|])
  {
    assert GridTime(t0, h, 0) == t0;
    if |x| > 0 {
      assert GridTime(t0, h, 0) + h <= end;
    }
  }
}

=== FILE: reset_rule.dfy ===
/**
 The reset activation rule of the reset-capable drivers: reset `i` fires
 when the product of its new test value and its reference test value is not
 positive.
 */
module ResetRule {
  import opened Vectors

  /** `[(tests[i] * b) <= 0.0 for i, b in enumerate(reference)]`: one flag per
      reference entry; the list comprehension reads `tests[i]` for every such
      index, so `tests` must be at least as long. */
  function Activated(tests: Vector, reference: Vector): (active: seq<bool>)
    requires |tests| >= |reference|
    ensures |active| == |reference|
  {
    seq(|reference|, i requires 0 <= i < |reference| => tests[i] * reference[i] <= 0.0)
  }

  predicate NoneActive(active: seq<bool>) {
    forall i :: 0 <= i < |active| ==> !active[i]
  }

  /** The rule fires exactly on a sign change: reset `i` is active iff its test
      value touches zero, its reference is zero, or the two lie strictly on
      opposite sides of zero. */
  lemma ActivationIsSignChange(tests: Vector, reference: Vector, i: nat)
    requires |tests| >= |reference| && i < |reference|
    ensures Activated(tests, reference)[i] <==>
              (tests[i] == 0.0 || reference[i] == 0.0 || (tests[i] < 0.0 <==> reference[i] > 0.0))
  {
    var a, b := tests[i], reference[i];
    if a > 0.0 && b > 0.0 {
      assert a * b > 0.0;
    } else if a < 0.0 && b < 0.0 {
      assert (-a) * (-b) > 0.0;
    } else if a > 0.0 && b < 0.0 {
      assert a * (-b) > 0.0;
    } else if a < 0.0 && b > 0.0 {
      assert (-a) * b > 0.0;
    }
  }

  /** No reset fires while every test value stays strictly on the side of zero
      its reference is on. */
  lemma SameSideNeverFires(tests: Vector, reference: Vector)
    requires |tests| >= |reference|
    requires forall i :: 0 <= i < |reference| ==>
               (tests[i] > 0.0 && reference[i] > 0.0) || (tests[i] < 0.0 && reference[i] < 0.0)
    ensures NoneActive(Activated(tests, reference))
  {
    forall i | 0 <= i < |reference|
      ensures !Activated(tests, reference)[i]
    {
      ActivationIsSignChange(tests, reference, i);
    }
  }
}

=== FILE: schedule.dfy ===
/**
 The time grid of the fixed-step drivers: the step size argument (a number
 or a one-element list, as the command line hands it over), the interval
 list, and how many times the loop `while t + h <= end: ...; t += h` runs.
 Time is a `real`, so `t0 + k·h` is exact here; the drivers accumulate
 floating-point rounding in `t += step_size`, which this model leaves out.
 */
module Schedule {

  /** The `step_size` argument: a plain number, or a list whose first element is used. */
  datatype StepSize = Scalar(value: real) | List(values: seq<real>)

  predicate Unwrappable(s: StepSize) {
    s.List? ==> |s.values| > 0
  }

  /** `if isinstance(step_size, list): step_size = step_size[0]`. */
  function Unwrap(s: StepSize): (h: real)
    requires Unwrappable(s)
    ensures s.Scalar? ==> h == s.value
    ensures s.List? ==> h == s.values[0]
  {
    match s
    case Scalar(v) => v
    case List(vs) => vs[0]
  }

  /** `interval[0]`. */
  function Start(interval: seq<real>): (t0: real)
    requires |interval| > 0
    ensures t0 == interval[0]
  {
    interval[0]
  }

  /** `interval[-1]`: the last element, whatever the length of the list. */
  function End(interval: seq<real>): (end: real)
    requires |interval| > 0
    ensures end == interval[|interval| - 1]
    // a one-element interval starts and ends at the same time
    ensures |interval| == 1 ==> end == Start(interval)
  {
    interval[|interval| - 1]
  }

  /** The command line hands the step over as a one-element list and the
      interval as a two-element list: the driver then uses the number given
      as the step, and runs from the first given time to the second. */
  lemma CommandLineArguments(h: real, t0: real, end: real)
    ensures Unwrappable(List([h])) && Unwrap(List([h])) == Unwrap(Scalar(h)) == h
    ensures Start([t0, end]) == t0 && End([t0, end]) == end
  {
  }

  /** The loop `while t + h <= end: ...; t += h` stops: either the step is
      positive, or the guard already fails at the start. With `h <= 0` and
      `t0 + h <= end` the drivers never return. */
  predicate Terminates(t0: real, h: real, end: real) {
    h > 0.0 || t0 + h > end
  }

  /** The `k`-th point `t0 + k·h` of the time grid. */
  function GridTime(t0: real, h: real, k: int): (t: real) {
    t0 + (k as real) * h
  }

  /** Every sampled time is on the grid `t0 + k·h` and passed the loop guard,
      and the first time that fails the guard is the one after the last sample. */
  predicate OnGrid(x: seq<real>, t0: real, h: real, end: real) {
    && (forall k :: 0 <= k < |x| ==> x[k] == GridTime(t0, h, k))
    && (forall k :: 0 <= k < |x| ==> x[k] + h <= end)
    && GridTime(t0, h, |x|) + h > end
  }

  /** The number of loop iterations: the `k` with `t0 + j·h + h <= end` for
      every `j < k` and `t0 + k·h + h > end`. */
  function StepCount(t0: real, h: real, end: real): (n: nat)
    requires Terminates(t0, h, end)
    ensures forall k :: 0 <= k < n ==> GridTime(t0, h, k) + h <= end
    ensures GridTime(t0, h, n) + h > end
    ensures n == 0 <==> t0 + h > end
  {
    if t0 + h > end then 0
    else
      GridFits(t0, h, end);
      ((end - t0) / h).Floor
  }

  /** With a positive step that fits at least once, the rounded-down quotient
      `(end - t0) / h` is the number of steps that fit. */
  lemma GridFits(t0: real, h: real, end: real)
    requires h > 0.0 && t0 + h <= end
    ensures 1 <= ((end - t0) / h).Floor
    ensures forall k :: 0 <= k < ((end - t0) / h).Floor ==> GridTime(t0, h, k) + h <= end
    ensures GridTime(t0, h, ((end - t0) / h).Floor) + h > end
  {
    var n := ((end - t0) / h).Floor;
    FloorBounds(end - t0, h);
    QuotientAtLeast(1, h, end - t0);
    forall k | 0 <= k < n
      ensures GridTime(t0, h, k) + h <= end
    {
      ProductBelow(k + 1, n, h, end - t0);
    }
  }

  /** `d/h` rounded down, multiplied back by `h`, brackets `d`. */
  lemma FloorBounds(d: real, h: real)
    requires h > 0.0
    ensures (((d / h).Floor) as real) * h <= d
    ensures (((d / h).Floor + 1) as real) * h > d
  {
    var q := d / h;
    var f := q.Floor as real;
    assert q * h == d;
    assert f <= q < f + 1.0;
    MulMonotone(f, q, h);
    var g := (q.Floor + 1) as real;
    assert g == f + 1.0;
    MulStrict(q, g, h);
    assert g * h > d;
  }

  /** A whole number of steps that fits into `d` is at most the rounded-down quotient. */
  lemma QuotientAtLeast(k: int, h: real, d: real)
    requires h > 0.0 && (k as real) * h <= d
    ensures k <= (d / h).Floor
  {
    var q := d / h;
    assert q * h == d;
    if (k as real) > q {
      MulStrict(q, k as real, h);
    }
  }

  /** `k ≤ n` steps of size `h` fit into `d` when `n` steps do. */
  lemma ProductBelow(k: int, n: int, h: real, d: real)
    requires k <= n && h > 0.0 && (n as real) * h <= d
    ensures (k as real) * h <= d
  {
    MulMonotone(k as real, n as real, h);
  }

  lemma MulMonotone(a: real, b: real, h: real)
    requires a <= b && h > 0.0
    ensures a * h <= b * h
  {
    assert b * h - a * h == (b - a) * h;
  }

  lemma MulStrict(a: real, b: real, h: real)
    requires a < b && h > 0.0
    ensures a * h < b * h
  {
    assert b * h - a * h == (b - a) * h;
  }
}

=== FILE: simple_ode.dfy ===
/**
 The generated one-state, one-reset sample model: a state `A` that starts at
 1, grows at unit rate, and is set back to 1 when it reaches 2. Run through
 the reset-capable Euler driver with a non-negative step, it traces a
 sawtooth whose samples all lie in [1, 2).
 */
module SimpleOde {
  import opened Vectors
  import opened Schedule
  import opened ModelContract
  import opened ResetRule
  import EulerResetCapable
  import EulerPlain

  const StateCount: nat := 1
  const VariableCount: nat := 0
  const ResetsCount: nat := 1

  /** `initialize_states_and_constants`: the state starts at 1; there are no
      constants to write. */
  function InitializeStatesAndConstants(states: Vector, variables: Vector): (r: (Vector, Vector))
    requires |states| >= 1
    ensures |r.0| == |states| && r.0[0] == 1.0
    ensures forall i :: 1 <= i < |states| ==> r.0[i] == states[i]
    ensures r.1 == variables
  {
    (states[0 := 1.0], variables)
  }

  /** `compute_rates`: `dA/dt = 1` whatever the time and state; the variables
      are untouched. */
  function ComputeRates(voi: real, states: Vector, rates: Vector, variables: Vector): (r: (Vector, Vector))
    requires |rates| >= 1
    ensures |r.0| == |rates| && r.0[0] == 1.0
    ensures forall i :: 1 <= i < |rates| ==> r.0[i] == rates[i]
    ensures r.1 == variables
  {
    (rates[0 := 1.0], variables)
  }

  /** `compute_reset_test_value_differences`: the test value of the one reset
      is `A - 2`, negative below the threshold and non-negative from it on. */
  function ComputeResetTestValueDifferences(voi: real, states: Vector, variables: Vector, tests: Vector): (r: Vector)
    requires |states| >= 1 && |tests| >= 1
    ensures |r| == |tests|
    ensures r[0] < 0.0 <==> states[0] < 2.0
    ensures r[0] + 2.0 == states[0]
    ensures forall i :: 1 <= i < |tests| ==> r[i] == tests[i]
  {
    tests[0 := states[0] - 2.0]
  }

  /** `apply_resets`: an active reset sets `A` back to 1; otherwise the state
      is unchanged. */
  function ApplyResets(voi: real, states: Vector, variables: Vector, active: seq<bool>): (r: Vector)
    requires |states| >= 1 && |active| >= 1
    ensures |r| == |states|
    ensures active[0] ==> r[0] == 1.0
    ensures !active[0] ==> r == states
    ensures forall i :: 1 <= i < |states| ==> r[i] == states[i]
  {
    if active[0] then states[0 := 1.0] else states
  }

  /** The sample as a reset-capable model. The generated functions index the
      arrays they are given; the drivers only pass arrays of the declared
      sizes, so the guards below never take their else branch there. */
  function Model(): (rs: ResetSystem)
    ensures ResetWellFormed(rs)
    ensures rs.base.stateCount == StateCount && rs.base.variableCount == VariableCount
    ensures rs.resetCount == ResetsCount
  {
    ResetSystem(
      System(
        StateCount,
        VariableCount,
        (s: Vector, v: Vector) => if |s| >= 1 then InitializeStatesAndConstants(s, v) else (s, v),
        (v: Vector) => v,
        (t: real, s: Vector, r: Vector, v: Vector) => if |r| >= 1 then ComputeRates(t, s, r, v) else (r, v)),
      ResetsCount,
      (t: real, s: Vector, v: Vector, tests: Vector) =>
        if |s| >= 1 && |tests| >= 1 then ComputeResetTestValueDifferences(t, s, v, tests) else tests,
      (t: real, s: Vector, v: Vector, active: seq<bool>) =>
        if |s| >= 1 && |active| >= 1 then ApplyResets(t, s, v, active) else s)
  }

  /** The loop state before the first iteration: `A = 1`, with no variables. */
  lemma InitialState(t0: real)
    ensures EulerResetCapable.Initial(Model(), t0).states == [1.0]
    ensures EulerResetCapable.Initial(Model(), t0).variables == []
  {
    var s := EulerResetCapable.Initial(Model(), t0).states;
    assert |s| == 1 && s[0] == 1.0;
  }

  /** The reference test vector every step is compared against is `[-1]`. */
  lemma ReferenceIsMinusOne(t0: real)
    ensures EulerResetCapable.Reference(Model(), EulerResetCapable.Initial(Model(), t0)) == [-1.0]
  {
    InitialState(t0);
    var r := EulerResetCapable.Reference(Model(), EulerResetCapable.Initial(Model(), t0));
    assert |r| == 1 && r[0] == -1.0;
  }

  /** A loop state of the sample with `A = a`. */
  predicate AtLevel(m: Machine, a: real) {
    Shaped(StateCount, VariableCount, m) && m.states[0] == a
  }

  /** Against the reference `[-1]`, the reset fires on a step exactly when the
      stepped state `A + h` reaches 2. */
  lemma FiresIffReachesTwo(h: real, m: Machine, a: real)
    requires AtLevel(m, a)
    ensures EulerResetCapable.StepActivation(Model(), h, [-1.0], m)[0] <==> a + h >= 2.0
  {
    var stepped := EulerResetCapable.Stepped(Model(), h, m);
    assert stepped[0] == a + h;
    var tests := Model().computeResetTestValueDifferences(m.t, stepped, EulerResetCapable.RatesAt(Model(), m).1, [-1.0]);
    assert tests[0] == a + h - 2.0;
    ActivationIsSignChange(tests, [-1.0], 0);
  }

  /** One step of the sample: `A` grows by `h`, and falls back to 1 once it
      reaches 2. */
  lemma StepRule(h: real, m: Machine, a: real)
    requires AtLevel(m, a)
    ensures AtLevel(EulerResetCapable.Step(Model(), h, [-1.0], m), if a + h >= 2.0 then 1.0 else a + h)
  {
    FiresIffReachesTwo(h, m, a);
    var stepped := EulerResetCapable.Stepped(Model(), h, m);
    assert stepped[0] == a + h;
  }

  /** With a non-negative step the level stays in [1, 2) for ever: the Euler
      step never lowers it, and whenever it would reach 2 the reset returns it
      to 1. */
  lemma {:induction false} Sawtooth(h: real, m: Machine, k: nat)
    requires h >= 0.0 && Shaped(StateCount, VariableCount, m)
    requires 1.0 <= m.states[0] < 2.0
    ensures var a := EulerResetCapable.Iterate(Model(), h, [-1.0], m, k).states[0];
            1.0 <= a < 2.0
    decreases k
  {
    if k > 0 {
      Sawtooth(h, m, k - 1);
      var p := EulerResetCapable.Iterate(Model(), h, [-1.0], m, k - 1);
      StepRule(h, p, p.states[0]);
    }
  }

  /** Run through the plain driver, which has no reset handling, the sample
      grows linearly: after `k` iterations `A = 1 + k·h`. */
  lemma {:induction false} PlainRunIsLinear(h: real, t0: real, k: nat)
    ensures EulerPlain.Iterate(Model().base, h, EulerPlain.Initial(Model().base, t0), k).states
         == [1.0 + (k as real) * h]
  {
    var sys := Model().base;
    var init := EulerPlain.Initial(sys, t0);
    InitialState(t0);
    assert init.states == [1.0];
    EulerPlain.ConstantRateLaw(sys, h, init, [1.0], k);
    var r := EulerStep([1.0], [1.0], (k as real) * h);
    assert |r| == 1 && r[0] == 1.0 + (k as real) * h;
  }

  /** Samples of a run of the sample from `t0`, as the driver records them. */
  lemma RecordedSawtooth(h: real, t0: real, x: seq<real>, results: seq<seq<real>>)
    requires h >= 0.0 && |results| == StateCount
    requires Records(x, results, EulerResetCapable.Run(Model(), h, t0, |x|))
    ensures |x| > 0 ==> results[0][0] == 1.0
    ensures forall k :: 0 <= k < |x| ==> 1.0 <= results[0][k] < 2.0
    ensures forall k :: 0 <= k < |x| - 1 ==>
              results[0][k + 1] == if results[0][k] + h >= 2.0 then 1.0 else results[0][k] + h
  {
    var init := EulerResetCapable.Initial(Model(), t0);
    InitialState(t0);
    ReferenceIsMinusOne(t0);
    forall k | 0 <= k < |x|
      ensures results[0][k] == EulerResetCapable.Iterate(Model(), h, [-1.0], init, k).states[0]
      ensures 1.0 <= results[0][k] < 2.0
    {
      Sawtooth(h, init, k);
    }
    forall k | 0 <= k < |x| - 1
      ensures results[0][k + 1] == if results[0][k] + h >= 2.0 then 1.0 else results[0][k] + h
    {
      var p := EulerResetCapable.Iterate(Model(), h, [-1.0], init, k);
      StepRule(h, p, p.states[0]);
    }
  }

  /** The sample run through the reset-capable Euler driver. */
  method RunSimpleOde(stepSize: StepSize, interval: seq<real>) returns (x: seq<real>, results: seq<seq<real>>)
    requires Unwrappable(stepSize) && |interval| > 0
    requires Terminates(Start(interval), Unwrap(stepSize), End(interval))
    ensures |results| == 1 && |results[0]| == |x|
    ensures OnGrid(x, Start(interval), Unwrap(stepSize), End(interval))
    ensures |x| > 0 ==> results[0][0] == 1.0
    ensures forall k :: 0 <= k < |x| ==> 1.0 <= results[0][k] < 2.0
    ensures forall k :: 0 <= k < |x| - 1 ==>
              results[0][k + 1] ==
                if results[0][k] + Unwrap(stepSize) >= 2.0 then 1.0 else results[0][k] + Unwrap(stepSize)
  {
    x, results := EulerResetCapable.EulerBasedSolver(Model(), stepSize, interval);
    if Unwrap(stepSize) >= 0.0 {
      RecordedSawtooth(Unwrap(stepSize), Start(interval), x, results);
    }
    // a negative step passes the loop guard only if it fails at once: no samples
  }
}

=== FILE: utilities.dfy ===
/**
 Selecting which model variables to report: dotted `component.name` strings
 from a configuration are parsed into info items, and the indices of the
 reported variables are chosen by an include list or, failing that, an
 exclude list.
 */
module Utilities {

  datatype Option<T> = None | Some(value: T)

  /** The separator of a dotted variable reference. */
  const Dot: char := '.'

  /** `s.split(sep)`: the pieces between separators, left to right; an empty
      string and adjacent separators give empty pieces. */
  function Split(s: string, sep: char): (parts: seq<string>)
    ensures |parts| >= 1
    ensures forall k :: 0 <= k < |parts| ==> sep !in parts[k]
    // the pieces put back together are the string split
    ensures Join(parts, sep) == s
    decreases |s|
  {
    if |s| == 0 then [""]
    else
      var rest := Split(s[1..], sep);
      if s[0] == sep then
        [""] + rest
      else
        assert Join(rest, sep) == s[1..];
        var parts := [[s[0]] + rest[0]] + rest[1..];
        JoinCons(rest, sep);
        JoinCons(parts, sep);
        assert parts[1..] == rest[1..];
        parts
  }

  /** The pieces separated by `sep`: the inverse of `Split`. */
  function Join(parts: seq<string>, sep: char): (s: string)
    requires |parts| >= 1
    ensures |s| >= |parts| - 1
    decreases |parts|
  {
    if |parts| == 1 then parts[0] else parts[0] + [sep] + Join(parts[1..], sep)
  }

  lemma JoinCons(parts: seq<string>, sep: char)
    requires |parts| >= 1
    ensures Join(parts, sep) == parts[0] + (if |parts| == 1 then [] else [sep] + Join(parts[1..], sep))
  {
  }

  /** Splitting a joined list gives back the pieces, when no piece holds the
      separator. */
  lemma {:induction false} SplitJoin(parts: seq<string>, sep: char)
    requires |parts| >= 1
    requires forall k :: 0 <= k < |parts| ==> sep !in parts[k]
    ensures Split(Join(parts, sep), sep) == parts
    decreases |parts|
  {
    if |parts| == 1 {
      SplitPiece(parts[0], [], sep);
    } else {
      SplitJoin(parts[1..], sep);
      SplitPiece(parts[0], [sep] + Join(parts[1..], sep), sep);
      assert ([sep] + Join(parts[1..], sep))[1..] == Join(parts[1..], sep);
      assert parts == [parts[0]] + parts[1..];
    }
  }

  /** A separator-free prefix becomes the head of the first piece. */
  lemma {:induction false} SplitPiece(a: string, b: string, sep: char)
    requires sep !in a
    requires b == [] || b[0] == sep
    ensures Split(a + b, sep)
         == if b == [] then [a] else [a] + Split(b[1..], sep)
    decreases |a|
  {
    if |a| > 0 {
      SplitPiece(a[1..], b, sep);
      assert (a + b)[1..] == a[1..] + b;
      assert [a[0]] + a[1..] == a;
    } else {
      assert a + b == b;
    }
  }

  /** `s` reads `c.n`, possibly followed by further dotted pieces: `c` is the
      text before the first dot and `n` the text between the first and the
      second. */
  predicate Denotes(s: string, c: string, n: string) {
    && Dot !in c && Dot !in n
    && |c| + 1 + |n| <= |s|
    && s[..|c|] == c && s[|c|] == Dot && s[|c| + 1..|c| + 1 + |n|] == n
    && (|s| == |c| + 1 + |n| || s[|c| + 1 + |n|] == Dot)
  }

  /** Two separator-free prefixes of `s` that both end at a dot are equal. */
  lemma PieceUnique(s: string, o: nat, a: string, b: string)
    requires Dot !in a && Dot !in b
    requires o + |a| < |s| && o + |b| < |s|
    requires s[o..o + |a|] == a && s[o..o + |b|] == b
    requires s[o + |a|] == Dot && s[o + |b|] == Dot
    ensures a == b
  {
    if |a| != |b| {
      assert false;
    }
  }

  /** A dotted string has exactly one first and one second piece. */
  lemma DenotesUnique(s: string, c1: string, n1: string, c2: string, n2: string)
    requires Denotes(s, c1, n1) && Denotes(s, c2, n2)
    ensures c1 == c2 && n1 == n2
  {
    PieceUnique(s, 0, c1, c2);
    PieceUnique(s + [Dot], |c1| + 1, n1, n2);
  }

  /** The first two pieces of a string with a dot are its component and name. */
  lemma SplitDenotes(s: string)
    requires Dot in s
    ensures |Split(s, Dot)| >= 2
    ensures Denotes(s, Split(s, Dot)[0], Split(s, Dot)[1])
  {
    var parts := Split(s, Dot);
    var c, n := parts[0], parts[1];
    JoinCons(parts, Dot);
    JoinCons(parts[1..], Dot);
    var tail := if |parts| == 2 then [] else [Dot] + Join(parts[2..], Dot);
    assert parts[1..][1..] == parts[2..];
    assert s == c + [Dot] + n + tail;
    assert s[..|c|] == c;
    assert s[|c| + 1..|c| + 1 + |n|] == n;
  }

  lemma SplitDenotesAll(names: seq<string>)
    requires forall k :: 0 <= k < |names| ==> Dot in names[k]
    ensures forall k :: 0 <= k < |names| ==>
              |Split(names[k], Dot)| >= 2 && Denotes(names[k], Split(names[k], Dot)[0], Split(names[k], Dot)[1])
  {
    forall k | 0 <= k < |names|
      ensures |Split(names[k], Dot)| >= 2 && Denotes(names[k], Split(names[k], Dot)[0], Split(names[k], Dot)[1])
    {
      SplitDenotes(names[k]);
    }
  }

  /** `{'name': ..., 'component': ...}` as built from a dotted string. */
  datatype InfoItem = InfoItem(name: string, component: string)

  /** An entry of a model's variable info table; `units` takes no part in
      matching. */
  datatype VariableInfo = VariableInfo(name: string, units: string, component: string)

  /** `info_items_list`: one item per dotted string, in order. A string
      without a dot has no second piece, which the source does not guard. */
  function InfoItemsList(names: seq<string>): (items: seq<InfoItem>)
    requires forall k :: 0 <= k < |names| ==> Dot in names[k]
    ensures |items| == |names|
    ensures forall k :: 0 <= k < |names| ==> Denotes(names[k], items[k].component, items[k].name)
  {
    SplitDenotesAll(names);
    seq(|names|, k requires 0 <= k < |names| =>
      var parts := Split(names[k], Dot);
      InfoItem(parts[1], parts[0]))
  }

  /** `matching_info_items`: the first match item with the same name and
      component ends the search with true. */
  function MatchingInfoItems(item: VariableInfo, matchItems: seq<InfoItem>): (found: bool)
    ensures found <==> exists j :: 0 <= j < |matchItems| &&
                          matchItems[j].name == item.name && matchItems[j].component == item.component
    decreases |matchItems|
  {
    if |matchItems| == 0 then false
    else if item.name == matchItems[0].name && item.component == matchItems[0].component then true
    else
      var found := MatchingInfoItems(item, matchItems[1..]);
      assert forall j :: 1 <= j < |matchItems| ==> matchItems[j] == matchItems[1..][j - 1];
      found
  }

  /** `not_matching_info_items`: no match item has both the same name and
      the same component. */
  function NotMatchingInfoItems(item: VariableInfo, matchItems: seq<InfoItem>): (none: bool)
    ensures none <==> forall j :: 0 <= j < |matchItems| ==>
                         matchItems[j].name != item.name || matchItems[j].component != item.component
  {
    !MatchingInfoItems(item, matchItems)
  }

  /** `item` is named by one of the dotted strings. */
  ghost predicate Named(names: seq<string>, item: VariableInfo) {
    exists j :: 0 <= j < |names| && Denotes(names[j], item.component, item.name)
  }

  /** Matching against the parsed list is matching against the strings. */
  lemma MatchingIsNamed(names: seq<string>, item: VariableInfo)
    requires forall k :: 0 <= k < |names| ==> Dot in names[k]
    ensures MatchingInfoItems(item, InfoItemsList(names)) <==> Named(names, item)
  {
    var items := InfoItemsList(names);
    if Named(names, item) {
      var j :| 0 <= j < |names| && Denotes(names[j], item.component, item.name);
      DenotesUnique(names[j], item.component, item.name, items[j].component, items[j].name);
    }
  }

  /** The configuration keys `apply_config` reads; an absent key is `None`. */
  datatype Config = Config(parameterIncludes: Option<seq<string>>, parameterExcludes: Option<seq<string>>)

  /** The key is present and its list is not empty. */
  predicate Given(entry: Option<seq<string>>) {
    entry.Some? && |entry.value| > 0
  }

  /** The list `apply_config` parses: the includes when given, otherwise the
      excludes when given. */
  predicate Parseable(config: Config) {
    if Given(config.parameterIncludes) then
      forall k :: 0 <= k < |config.parameterIncludes.value| ==> Dot in config.parameterIncludes.value[k]
    else if Given(config.parameterExcludes) then
      forall k :: 0 <= k < |config.parameterExcludes.value| ==> Dot in config.parameterExcludes.value[k]
    else true
  }

  predicate StrictlyIncreasing(s: seq<nat>) {
    forall a, b :: 0 <= a < b < |s| ==> s[a] < s[b]
  }

  /** `range(n)`. */
  function Range(n: nat): (r: seq<nat>)
    ensures |r| == n
    ensures forall k :: 0 <= k < n ==> r[k] == k
  {
    seq(n, k requires 0 <= k < n => k)
  }

  /** `[x for x, z in enumerate(y_info) if <match> == wanted]`, from index `lo`. */
  function Select(yInfo: seq<VariableInfo>, items: seq<InfoItem>, wanted: bool, lo: nat): (r: seq<nat>)
    requires lo <= |yInfo|
    ensures StrictlyIncreasing(r)
    ensures forall k :: 0 <= k < |r| ==> lo <= r[k] < |yInfo|
    ensures forall i :: lo <= i < |yInfo| ==> (i in r <==> MatchingInfoItems(yInfo[i], items) == wanted)
    decreases |yInfo| - lo
  {
    if lo == |yInfo| then []
    else
      var rest := Select(yInfo, items, wanted, lo + 1);
      if MatchingInfoItems(yInfo[lo], items) == wanted then [lo] + rest else rest
  }

  /** `apply_config`: the indices of the variables to report. */
  function ApplyConfig(config: Config, yInfo: seq<VariableInfo>): (indices: seq<nat>)
    requires Parseable(config)
    ensures StrictlyIncreasing(indices)
    ensures forall k :: 0 <= k < |indices| ==> indices[k] < |yInfo|
    // a given include list selects exactly the variables it names
    ensures Given(config.parameterIncludes) ==>
              forall i :: 0 <= i < |yInfo| ==> (i in indices <==> Named(config.parameterIncludes.value, yInfo[i]))
    // otherwise a given exclude list selects exactly the variables it does not name
    ensures !Given(config.parameterIncludes) && Given(config.parameterExcludes) ==>
              forall i :: 0 <= i < |yInfo| ==> (i in indices <==> !Named(config.parameterExcludes.value, yInfo[i]))
    // with neither, every variable is reported
    ensures !Given(config.parameterIncludes) && !Given(config.parameterExcludes) ==> indices == Range(|yInfo|)
  {
    if Given(config.parameterIncludes) then
      var names := config.parameterIncludes.value;
      var r := Select(yInfo, InfoItemsList(names), true, 0);
      forall i | 0 <= i < |yInfo| ensures i in r <==> Named(names, yInfo[i]) {
        MatchingIsNamed(names, yInfo[i]);
      }
      r
    else if Given(config.parameterExcludes) then
      var names := config.parameterExcludes.value;
      var r := Select(yInfo, InfoItemsList(names), false, 0);
      forall i | 0 <= i < |yInfo| ensures i in r <==> !Named(names, yInfo[i]) {
        MatchingIsNamed(names, yInfo[i]);
      }
      r
    else
      Range(|yInfo|)
  }

  /** A given include list decides alone: the exclude list is never read. */
  lemma IncludesTakePrecedence(config: Config, excludes: Option<seq<string>>, yInfo: seq<VariableInfo>)
    requires Given(config.parameterIncludes) && Parseable(config)
    ensures Parseable(config.(parameterExcludes := excludes))
    ensures ApplyConfig(config.(parameterExcludes := excludes), yInfo) == ApplyConfig(config, yInfo)
  {
  }
}

=== FILE: vectors.dfy ===
/**
 The real-valued arrays a generated cell model works on (states, rates,
 variables, reset test values) and the two list operations the explicit
 Euler drivers build their update from.
 */
module Vectors {

  type Vector = seq<real>

  /** Stand-in for the NaN the generated `create_*_array` functions fill new
      arrays with: `real` has no NaN, so this value marks "not yet written". */
  const Placeholder: real := 0.0

  function Min(a: nat, b: nat): (m: nat) {
    if a <= b then a else b
  }

  /** A freshly created model array of length `n`. */
  function Unset(n: nat): (v: Vector)
    ensures |v| == n
    ensures forall i :: 0 <= i < n ==> v[i] == Placeholder
  {
    seq(n, _ => Placeholder)
  }

  /** `[sum(x) for x in zip(a, b)]`: the elementwise sum, truncated to the
      shorter operand as `zip` truncates. */
  function Add(a: Vector, b: Vector): (r: Vector)
    ensures |r| == Min(|a|, |b|)
    ensures forall i :: 0 <= i < |r| ==> r[i] == a[i] + b[i]
  {
    seq(Min(|a|, |b|), i requires 0 <= i < Min(|a|, |b|) => a[i] + b[i])
  }

  /** `list(map(lambda var: var * step_size, v))`. */
  function Scale(v: Vector, h: real): (r: Vector)
    ensures |r| == |v|
    ensures forall i :: 0 <= i < |v| ==> r[i] == v[i] * h
  {
    seq(|v|, i requires 0 <= i < |v| => v[i] * h)
  }

  /** One explicit Euler update of the state `s` along the rate `r`. */
  function EulerStep(s: Vector, r: Vector, h: real): (next: Vector)
    ensures |next| == Min(|s|, |r|)
    ensures forall i :: 0 <= i < |next| ==> next[i] == s[i] + h * r[i]
  {
    Add(s, Scale(r, h))
  }

  /** A step of size zero leaves the state where it is. */
  lemma EulerStepZero(s: Vector, r: Vector)
    requires |s| == |r|
    ensures EulerStep(s, r, 0.0) == s
  {
    var e := EulerStep(s, r, 0.0);
    forall i | 0 <= i < |e| ensures e[i] == s[i] { }
  }

  /** Two Euler steps along the same rate make one step of the summed size:
      a constant rate law advances linearly. */
  lemma EulerStepsCompose(s: Vector, r: Vector, h1: real, h2: real)
    requires |s| == |r|
    ensures EulerStep(EulerStep(s, r, h1), r, h2) == EulerStep(s, r, h1 + h2)
  {
    var a := EulerStep(EulerStep(s, r, h1), r, h2);
    var b := EulerStep(s, r, h1 + h2);
    assert |a| == |b|;
    forall i | 0 <= i < |a|
      ensures a[i] == b[i]
    {
      calc {
        a[i];
        (s[i] + h1 * r[i]) + h2 * r[i];
        s[i] + (h1 + h2) * r[i];
        b[i];
      }
    }
  }
}
